=== FILE: README.md ===
# Neon arcade games in Dafny

A model of the game logic of the neon arcade: eight small browser games, each
a class or two driven by a frame loop and keyboard events. The main one is
the block stacker, `docs/games/neon-blocks.js`. It has seven tetromino
patterns, rotation, the placement test, merging a piece into the 10 × 20
field, and the line clear. The other seven are modelled by their state
updates:

- the endless runner and its power-ups;
- the lava climber (the "arcade" game);
- the two-fighter duel;
- pong;
- the falling-block motorcycle game;
- two-player basketball;
- the two-car race.

Each game is one module with one file:

| module | file | models |
|---|---|---|
| `Geometry` | geometry.dfy | the strict bounding-box overlap test and clamp shared by all games |
| `Tetromino` | tetromino.dfy | `Block`: the seven patterns and `rotate` |
| `BlockGrid` | block_grid.dfy | `isValidMove`, `merge`, `checkLines` |
| `BlockGame` | block_game.dfy | `handleInput`, `update`, `animate`, `restart` |
| `Runner` | runner.dfy | neon-runner.js |
| `Arcade` | arcade.dfy | neon-arcade.js |
| `Duel` | duel.dfy | neon-duel.js |
| `Pong` | pong.dfy | neon-pong.js |
| `Moto` | moto.dfy | neon-moto.js |
| `Basket` | basket.dfy | neon-basket.js |
| `Race` | race.dfy | neon-race.js |

Every game object is an immutable datatype and every method a pure
function from the old state to the new one. Inputs are explicit parameters:

- `Math.random()` draws, for spawns, level layout, the next piece and the ball's reset direction;
- `Date.now()` readings;
- the canvas size;
- the set of keys held down.

Timer callbacks (`setTimeout`, `setInterval`) become events, for example "lava starts" or "countdown over". Each game's
`Run` folds a sequence of such events over a state, and its `RunKeepsInv`
lemma shows that the game's invariant holds after any sequence of events.
Fractional constants (gravity 0.8, lava 0.5, fuel 0.1 and 0.5, the 1.1 and
1.35 factors, the basketball clock's 0.016) are exact `real`s. Integral
quantities (block grid, pong paddles, scores, cooldowns) are `int`s.

Two spots of the original mutate an array while walking it. Both are
modelled as written:

- `checkLines` walks the rows upwards and splices each full row out. It does
  not re-test the row that moves down into the cleared slot.
  `BlockGrid.ClearLinesSkipsRowAboveCleared` gives a field where a full row
  survives because of this.
- The motorcycle game splices a block that fell off the canvas out of the
  list inside a `for…of` loop, so the next block is skipped for that frame.
  `Moto.Advance` is that loop. `Moto.FallAll` is the plain filter.
  `Moto.AdvanceIsFallAllWhenNoneLeave` shows the two agree while no block
  leaves, and `Moto.AdvanceSkipsBlockAfterRemoved` gives a case where they
  differ.

## Model

| member | source | states |
|---|---|---|
| Tetromino.Shape | docs/games/neon-blocks.js:4-12 | every pattern is a rectangular grid of at most 2 rows and 4 columns |
| Tetromino.NewBlock | docs/games/neon-blocks.js:2-16 | a new piece has its kind's pattern and spawns at column 3, row 0 |
| Tetromino.Rotate | docs/games/neon-blocks.js:18-23 | rotation turns an r × c pattern into a c × r one whose cell (i, j) is the old cell (r-1-j, i): a quarter turn clockwise |
| Tetromino.RotatePreservesCount | docs/games/neon-blocks.js:18-23 | rotating never changes the number of filled cells |
| Tetromino.ShapeHasFourCells | docs/games/neon-blocks.js:5-11 | each of the seven patterns has exactly four filled cells |
| Tetromino.RotateTwice | docs/games/neon-blocks.js:18-23 | two rotations turn the pattern half way round, each cell mirrored through the centre |
| Tetromino.RotateFourTimes | docs/games/neon-blocks.js:18-23 | four rotations give back the original pattern |
| Tetromino.RotatedShapeHasFourCells | docs/games/neon-blocks.js:5-23 | every orientation a piece can reach has four filled cells |
| BlockGrid.EmptyGrid | docs/games/neon-blocks.js:33 | the starting field is 20 rows of 10 empty cells |
| BlockGrid.IsValidMove | docs/games/neon-blocks.js:91-106 | a move is valid iff every filled cell of the shifted pattern is inside the field and on an empty cell |
| BlockGrid.FitsInGrid | docs/games/neon-blocks.js:91-106 | a piece in a valid position lies wholly inside the field |
| BlockGrid.Merge | docs/games/neon-blocks.js:108-116 | merging writes the piece's kind into exactly the cells its pattern covers and leaves every other cell unchanged |
| BlockGrid.CheckLines | docs/games/neon-blocks.js:118-131 | the cleared field has the same height and its top `lines` rows are empty. Below them, the non-full rows of the old field all remain, in order, and nothing new was added. The score rises by 100 per cleared line. At least one line is cleared iff the field has a full row, and every row below the lowest full row stays in place |
| BlockGrid.ClearFromCounts | docs/games/neon-blocks.js:120-128 | the pass from a row upwards clears a line iff some row it walks over is full |
| BlockGrid.ClearFromKeepsBelow | docs/games/neon-blocks.js:120-128 | the pass never changes a row that has no full row between it and the starting row |
| BlockGrid.CheckLinesNoFullRows | docs/games/neon-blocks.js:118-131 | a field with no full row is left alone and the score does not change |
| BlockGrid.ClearLinesSkipsRowAboveCleared | docs/games/neon-blocks.js:120-126 | with two full rows at the bottom, only one is cleared (100 points) and a full row remains at the bottom |
| BlockGame.Restart | docs/games/neon-blocks.js:224-234 | restart gives an empty field, score 0, a fresh piece of the drawn kind at (3, 0) and zeroed timers |
| BlockGame.Shift | docs/games/neon-blocks.js:70-81 | an arrow move shifts the piece by the offset exactly when the shifted piece fits, otherwise nothing changes |
| BlockGame.TurnOrRevert | docs/games/neon-blocks.js:82-87 | the up arrow rotates the piece when the rotation fits and otherwise restores the old pattern |
| BlockGame.HandleInput | docs/games/neon-blocks.js:63-89 | after game over only Enter does anything and it restarts. During play, left, right and down shift the piece by one cell when it fits there, up turns it or leaves it, and any other key changes nothing. Keys move only the current piece, and a piece that fit still fits |
| BlockGame.Lock | docs/games/neon-blocks.js:201-211 | a piece that cannot fall is merged and full rows cleared, with 100 points per line. The game ends iff the top row is then taken, and otherwise the next piece spawns at (3, 0) with the drop timer reset |
| BlockGame.Settle | docs/games/neon-blocks.js:204-211 | after the clear, the game ends iff a cell of the top row is filled, and otherwise a piece of the drawn kind spawns with the drop timer at 0 |
| BlockGame.Update | docs/games/neon-blocks.js:193-214 | the elapsed time is added to the drop timer. Before the interval only the timers advance, and the score never drops. After it, a piece that can fall moves one row down and the timer resets, and a piece that cannot lands as BlockGame.Lock describes |
| BlockGame.Frame | docs/games/neon-blocks.js:216-222 | frames stop after game over. The score never decreases and the invariant (a 10 × 20 field with the piece on it) is kept |
| Runner.NewPlayer | docs/games/neon-runner.js:2-17 | the runner starts on the ground with one jump and no power-up |
| Runner.Jump | docs/games/neon-runner.js:19-25 | a jump uses up one of the remaining jumps and sets the upward speed to the jump force. With no jumps left it does nothing |
| Runner.Activate | docs/games/neon-runner.js:114-137 | each power-up sets its own timer (660, 780, 660 or 720 frames). SuperS and IronMan give two jumps, IronMan gives 4 hits, and Flash multiplies the jump force by 1.35 |
| Runner.Deactivate | docs/games/neon-runner.js:139-147 | Flash's jump force is restored. The power-up is dropped unless it is IronMan with hits left |
| Runner.PlayerUpdate | docs/games/neon-runner.js:27-44 | gravity and landing: the runner never sinks below the ground. Landing refills the jumps to the power-up's budget, and the power-up timer counts down |
| Runner.NewObstacle | docs/games/neon-runner.js:155-163 | an obstacle is 20 to 120 high, stands on the ground line and enters at the right edge |
| Runner.NewItem | docs/games/neon-runner.js:179-195 | a power-up appears at the right edge, no higher than the runner's jump can reach |
| Runner.MoveObstacle | docs/games/neon-runner.js:165-167 | an obstacle scrolls 5 to the left and keeps its height and position on the ground |
| Runner.MoveItem | docs/games/neon-runner.js:202-204 | a power-up scrolls 5 to the left and keeps its height and kind |
| Runner.CheckCollision | docs/games/neon-runner.js:398-403 | a plain definition: the strict overlap test of the runner's and the obstacle's boxes. Runner.CheckCollisionSymmetric and Runner.ResolveObstacle state its use |
| Runner.EndGame | docs/games/neon-runner.js:437-447 | ending the game records ⌊score/10⌋ as the new best if it beats the old one |
| Runner.EndGameKeepsBest | docs/games/neon-runner.js:437-447 | the best after a game is the larger of the old best and ⌊score/10⌋ |
| Runner.ResolveObstacle | docs/games/neon-runner.js:364-377 | on a hit, the shield removes the obstacle, IronMan spends a hit to remove it, and otherwise the game ends. Kept obstacles are still on screen |
| Runner.ObstacleFilter | docs/games/neon-runner.js:364-377 | the obstacle pass never restores IronMan hits or a finished game, and keeps only obstacles still on screen |
| Runner.ShieldNeverEnds | docs/games/neon-runner.js:364-377 | with the shield up, no obstacle ends the game |
| Runner.ItemFilter | docs/games/neon-runner.js:379-386 | the power-up pass keeps exactly the moved items the runner does not touch and that are still on screen, in order. The power-up in force afterwards is the last one touched, the runner is unchanged when none is touched, and the jump and hit counters stay in range |
| Runner.PowerUpExpires | docs/games/neon-runner.js:38-43 | a power-up whose timer runs out is dropped, unless it is IronMan with hits left |
| Runner.CheckCollisionSymmetric | docs/games/neon-runner.js:398-403 | the runner's collision test is the shared overlap test |
| Runner.Update | docs/games/neon-runner.js:347-396 | a finished game does not change. A running game's score strictly increases (by 0.5 while Flash slows the game), the best never decreases, and the invariant holds |
| Runner.Restart | docs/games/neon-runner.js:449-459 | restart clears obstacles, items, score and timers and keeps the best score |
| Runner.Press | docs/games/neon-runner.js:315-333 | space or a tap restarts a finished game and otherwise jumps |
| Runner.Step | docs/games/neon-runner.js:315-396 | a frame or a tap keeps the invariant and never lowers the best |
| Runner.RunKeepsInv | docs/games/neon-runner.js:347-396 | over any run, jumps stay in 0..2, IronMan hits in 0..4, the runner above the ground, and the best never decreases |
| Arcade.NewPlayer | docs/games/neon-arcade.js:2-12 | the climber starts centred, 10 above the bottom, still and unshielded |
| Arcade.Move | docs/games/neon-arcade.js:14-33 | each arrow sets one axis of velocity to ±5 and the other to 0 |
| Arcade.Release | docs/games/neon-arcade.js:185-188 | releasing any key stops the climber |
| Arcade.PlayerUpdate | docs/games/neon-arcade.js:35-50 | the climber moves and is clamped into the canvas. A shield counts down and drops when it reaches 0 |
| Arcade.ObstacleUpdate | docs/games/neon-arcade.js:72-79 | only platforms move. A platform's direction flips exactly when it touches a side of the canvas |
| Arcade.UpdateAll | docs/games/neon-arcade.js:195 | every obstacle is updated once, in place, and the list keeps its length |
| Arcade.GenerateLevel | docs/games/neon-arcade.js:117-165 | a level is 10 walls of 50 × 10, then 3 shields of 20 × 20, then 5 platforms of 80 × 10, then the exit at the top right. Walls lie within 50 of the right and bottom edges, shields within 20 of both, and platforms within 80 of the right and 20 of the bottom |
| Arcade.Place | docs/games/neon-arcade.js:121-154 | an obstacle placed by two draws in [0, 1) lies within the room the canvas leaves on each axis |
| Geometry.Scale | docs/games/neon-arcade.js:124-125 | a random draw in [0, 1) scaled by the room the canvas leaves lands inside that room. Every random placement in the level and the falling blocks uses it |
| Arcade.ScatterInside | docs/games/neon-arcade.js:121-154 | every scattered obstacle lies within the room the canvas leaves for it, horizontally and vertically |
| Arcade.LevelCounts | docs/games/neon-arcade.js:117-165 | a level has 10 walls, 3 shields, 5 platforms and exactly one exit |
| Arcade.LevelExitLast | docs/games/neon-arcade.js:156-164 | the exit is the last obstacle and the only one |
| Arcade.NextZone | docs/games/neon-arcade.js:276-291 | leaving zone 3 wins. Otherwise the climber is re-centred, the lava is reset and 0.2 faster, a new level is laid out and the lava waits again |
| Arcade.Collide | docs/games/neon-arcade.js:198-212 | a shield item is picked up (300 frames) and removed. Walls and platforms push the climber back by one step. The exit goes to the next zone |
| Arcade.CollideAll | docs/games/neon-arcade.js:198-212 | the collision pass keeps the invariant. Once a new level replaces the list, the list stays replaced |
| Arcade.CollideAllZone | docs/games/neon-arcade.js:198-212 | one pass advances the zone at most once per exit in the list |
| Arcade.Lava | docs/games/neon-arcade.js:214-225 | once started, the lava rises by its speed. Touching it uses up the shield and lifts the climber onto the lava, or loses the game |
| Arcade.Resolve | docs/games/neon-arcade.js:194-212 | moving and walking the collisions leave the score alone |
| Arcade.ResolveKeepsInv | docs/games/neon-arcade.js:191-212 | moving and walking the collisions in a running game keep the invariant |
| Arcade.Update | docs/games/neon-arcade.js:191-229 | a finished game does not change. Otherwise the score goes up by one |
| Arcade.UpdateKeepsInv | docs/games/neon-arcade.js:191-229 | a frame keeps the zone in 1..3 while playing and the lava speed matching the zone. The shield lasts at most 300 frames and the exit stays the last obstacle |
| Arcade.Restart | docs/games/neon-arcade.js:309-323 | restart gives zone 1, score 0, lava speed 0.5 at height 0, a fresh climber and a fresh level |
| Arcade.RunKeepsInv | docs/games/neon-arcade.js:191-229 | the invariant holds over any sequence of key, lava-start, frame and restart events |
| Arcade.LastExitWins | docs/games/neon-arcade.js:276-280 | touching the exit in zone 3 wins the game |
| Duel.NewFighter | docs/games/neon-duel.js:2-23 | a fighter starts with 100 health, no cooldowns and not attacking |
| Duel.FighterUpdate | docs/games/neon-duel.js:25-46 | gravity with landing sets grounded exactly when the fighter hits the floor. Walls clamp x and cooldowns count down to 0 |
| Duel.Attack | docs/games/neon-duel.js:71-79 | an attack starts only with no cooldown and sets a 30-frame cooldown |
| Duel.Special | docs/games/neon-duel.js:81-91 | the special leaps up at 15 and forward at 15, attacks, and sets a 120-frame cooldown. It is available only when not cooling down |
| Duel.HandleInput | docs/games/neon-duel.js:132-158 | left beats right, no direction stops the fighter, jumping needs the ground, and attack and special follow their cooldowns |
| Duel.AttackBox | docs/games/neon-duel.js:163-170 | the 60 × 30 attack box sits at mid-height on the side the fighter faces |
| Duel.CheckCollision | docs/games/neon-duel.js:160-184 | an attacking fighter whose box overlaps the defender takes 5 health off it. Reaching 0 names the attacker the winner |
| Duel.NewGame | docs/games/neon-duel.js:95-120 | fighters start at (100, 200) facing right and (650, 200) facing left |
| Duel.Update | docs/games/neon-duel.js:191-202 | each fighter loses at most 5 health a frame. A winner is declared only when the other fighter is down, and player 2 wins if player 1 falls in the same frame |
| Duel.UpdateKeepsInv | docs/games/neon-duel.js:191-202 | health stays a multiple of 5 in 0..100 and both fighters stand while the fight goes on |
| Duel.RunKeepsInv | docs/games/neon-duel.js:191-244 | the invariant holds over any sequence of frames, attack-ends and restarts |
| Duel.DecidedStaysDecided | docs/games/neon-duel.js:191-192 | once decided, the outcome never changes until a restart |
| Pong.MovePaddle | docs/games/neon-pong.js:17-23 | a paddle moves 5 up unless at the top, or 5 down unless at the bottom |
| Pong.MoveStaysInField | docs/games/neon-pong.js:17-23 | paddles never leave the 400-high field |
| Pong.Reset | docs/games/neon-pong.js:81-86 | a reset ball is at the centre with speed 5 on each axis, in the drawn directions |
| Pong.IncreaseSpeed | docs/games/neon-pong.js:73-79 | every 5 seconds both speeds grow by 10% and the clock restarts |
| Pong.MoveAndBounce | docs/games/neon-pong.js:44-58 | the ball bounces vertically when it leaves the field and horizontally when it meets a paddle |
| Pong.HitsLeft | docs/games/neon-pong.js:54 | a plain definition: the ball is past the left paddle's front edge and level with it. Pong.MoveAndBounce states its use |
| Pong.HitsRight | docs/games/neon-pong.js:56 | a plain definition: the ball is past the right paddle's x and level with it. Pong.MoveAndBounce states its use |
| Pong.BallUpdate | docs/games/neon-pong.js:44-71 | leaving on the left scores for player 2 and on the right for player 1. The ball then restarts from the centre |
| Pong.BallUpdateKeepsDiagonal | docs/games/neon-pong.js:44-86 | the ball's speed stays equal on both axes |
| Pong.UpdateAI | docs/games/neon-pong.js:116-123 | the computer's paddle moves towards the ball |
| Pong.CheckGameOver | docs/games/neon-pong.js:129-136 | the game is over iff a side has 5 points |
| Pong.Winner | docs/games/neon-pong.js:132 | a plain definition: player 1 is named when it has 5, else player 2. Pong.WinnerReachedFive shows the named side has 5 |
| Pong.Update | docs/games/neon-pong.js:138-145 | at most one point per frame, scores never decrease, and the game ends exactly at 5 |
| Pong.NewGame | docs/games/neon-pong.js:89-101 | paddles at x = 10 and 780 at the start height, the ball in the centre moving at 5 right and 5 down, its speed clock at the current time, 0–0 |
| Pong.UpdateKeepsInv | docs/games/neon-pong.js:138-145 | scores stay at most 5 with only one side on 5, and paddles stay in the field |
| Pong.KeyDown | docs/games/neon-pong.js:103-114 | W and S move the left paddle. The arrows move the right one only in two-player mode |
| Pong.WinnerReachedFive | docs/games/neon-pong.js:129-136 | the winner named is the side with 5 points |
| Pong.RunKeepsInv | docs/games/neon-pong.js:138-170 | the invariant holds over any sequence of frames and key presses |
| Moto.NewBike | docs/games/neon-moto.js:2-12 | the bike starts centred with 100 health and no collisions |
| Moto.Move | docs/games/neon-moto.js:22-28 | the bike steps 15 left iff asked and not at the left edge, and likewise to the right |
| Moto.Hit | docs/games/neon-moto.js:30-34 | a hit counts one collision and costs 20 health |
| Moto.HitKeepsHealthMatch | docs/games/neon-moto.js:30-34 | health is always 100 − 20 · collisions |
| Moto.NewBlock | docs/games/neon-moto.js:38-47 | a block enters above the canvas, lies within the canvas width, and falls at 4 to 6 per frame |
| Moto.Fall | docs/games/neon-moto.js:57-59 | a block falls by its own speed and keeps its column and speed |
| Moto.Advance | docs/games/neon-moto.js:117-123 | the falling pass never adds blocks and keeps every speed at least 4 |
| Moto.AdvanceIsFallAllWhenNoneLeave | docs/games/neon-moto.js:117-123 | while no block leaves the canvas, the pass is the plain fall of every block |
| Moto.AdvanceSkipsBlockAfterRemoved | docs/games/neon-moto.js:117-123 | when two blocks leave together the pass drops only the first. The filter drops both |
| Moto.CheckCollision | docs/games/neon-moto.js:90-103 | each touching block is hit once and moved off the canvas. Collisions grow by the number of touching blocks, and the game ends iff a hit brings collisions to 5 or health to 0 |
| Moto.HitBlockNeverHitsAgain | docs/games/neon-moto.js:97 | a block moved off the canvas never touches the bike again |
| Moto.Spawn | docs/games/neon-moto.js:75-81 | a new block is appended every spawn, but only while the game runs |
| Moto.NewGame | docs/games/neon-moto.js:63-73 | a new game has a fresh bike and exactly one block, spawned straight away, and keeps the invariant |
| Moto.Update | docs/games/neon-moto.js:111-126 | a finished game does not change. Collisions never decrease, and the game ends exactly when this frame's hits reach the limit |
| Moto.UpdateKeepsInv | docs/games/neon-moto.js:111-126 | health matches collisions, a running game has fewer than 5, and blocks keep falling |
| Moto.RunKeepsInv | docs/games/neon-moto.js:62-141 | over any run, health equals 100 − 20 · collisions |
| Basket.Hoop | docs/games/neon-basket.js:124-131 | the hoop is 80 × 10 at y = 150, centred across the canvas |
| Basket.BallUpdate | docs/games/neon-basket.js:90-109 | a ball scores iff it has not scored before and it meets the hoop. A scored ball is off screen in the same update, so it scores at most once |
| Basket.NewPlayer | docs/games/neon-basket.js:2-15 | the keyboard player starts at x = 50 and the other 80 from the right, on the floor with no balls |
| Basket.Jump | docs/games/neon-basket.js:17-22 | a jump needs the ground and sets the upward speed to 15 |
| Basket.Move | docs/games/neon-basket.js:24-28 | a step of 5 that lands inside the canvas is taken as is. A step past the left edge stops at 0 and one past the right edge stops at width − 30 |
| Basket.Shoot | docs/games/neon-basket.js:30-44 | a shot adds one ball at the player's top centre, rising at 10 and heading 4 towards the hoop's side |
| Basket.FlyAll | docs/games/neon-basket.js:56-57 | the balls kept are exactly the updated balls still on screen, in order, and the points are the updates that met the hoop. Kept balls have not scored, and with no scored ball before, the points are the balls that left the list minus those that fell |
| Basket.PlayerUpdate | docs/games/neon-basket.js:46-58 | gravity with landing keeps the player above the floor. The score grows by at most one per ball in flight. Each point uses up a ball in flight |
| Basket.Update | docs/games/neon-basket.js:175-181 | the clock drops by 0.016 while the game runs, and the game ends exactly when it reaches 0. Scores never decrease |
| Basket.NewGame | docs/games/neon-basket.js:144-155 | the keyboard and touch players start at their spots, the clock at 60 and the game running |
| Basket.Press | docs/games/neon-basket.js:158-170 | the left and right keys move, the jump key jumps and the shoot key shoots, for the player who pressed. The score is unchanged and no scored ball appears |
| Basket.Step | docs/games/neon-basket.js:157-181 | frames and keys keep the clock positive while running and leave no scored ball in flight |
| Basket.ScoreBoundedByShots | docs/games/neon-basket.js:30-109 | over any run, player 1's points plus balls in flight grow by at most the shots fired |
| Basket.StepShots | docs/games/neon-basket.js:30-58 | one event adds at most one to player 1's points plus balls in flight, and only player 1's shot can add it |
| Race.NewCar | docs/games/neon-race.js:2-24 | a car starts still with full fuel, no laps, no best time (Infinity) and no trail |
| Race.HandleInput | docs/games/neon-race.js:95-125 | throttle caps speed at the top speed and braking floors it at −top/2. Steering needs motion and turns by 0.03, the other way round when backing up, and both steering keys cancel. Nitro is on iff pressed with fuel left, and drift is capped at 0.8 |
| Race.PushTrail | docs/games/neon-race.js:28-29 | the trail puts the newest position first and keeps at most 10 entries |
| Race.Update | docs/games/neon-race.js:26-61 | burning nitro sets top speed 8 and spends 0.5 fuel, floored at 0. Otherwise top speed is 5 and 0.1 fuel comes back, capped at 100. Friction and drift recovery apply, the cooldown counts down to 0, and the nitro switch and lap records are left alone |
| Race.MinBest | docs/games/neon-race.js:314 | the new best is the smaller of the old best and the new lap time |
| Race.Visit | docs/games/neon-race.js:303-316 | a checkpoint reached for the first time is recorded. Recording the last one completes a lap: the lap counter goes up, the set is cleared, and the time is recorded |
| Race.Checkpoints | docs/games/neon-race.js:303-317 | the checkpoint pass never lowers the lap count |
| Race.MinBestIsBest | docs/games/neon-race.js:312-314 | the best time is always the least lap time recorded |
| Race.CheckpointsKeepLapInv | docs/games/neon-race.js:303-317 | recorded checkpoints are track indices and fewer than all of them. There is one time per lap, and the best is the least |
| Race.AtMostOneLapPerPass | docs/games/neon-race.js:303-317 | one pass over the checkpoints completes at most one lap |
| Race.Obstacles | docs/games/neon-race.js:320-325 | a hit with no cooldown reverses the car at half speed and sets a 30-frame cooldown. At most one bounce happens per pass |
| Race.CheckCollisions | docs/games/neon-race.js:297-334 | collisions never lower a lap count |
| Race.Step | docs/games/neon-race.js:348-357 | nothing happens before the countdown ends, and lap counts never go down |
| Race.NewGame | docs/games/neon-race.js:242-263 | the cars start still at (400, 480) and (430, 480), with no key held and the race not yet started |
| Race.Apply | docs/games/neon-race.js:269-295 | a key going down is held and a key going up is released, only in the pressing player's set and with nothing else changed. The end of the countdown starts the race, and a frame is Race.Step |
| Race.StepKeepsInv | docs/games/neon-race.js:348-357 | fuel stays in 0..100, drift in 0..0.8, cooldown in 0..30, trail at most 10, speed within ±8, and the lap invariant holds |
| Race.RunKeepsInv | docs/games/neon-race.js:260-357 | over any run, the car bounds and lap invariant hold and lap counts never decrease |
| Geometry.OverlapsSymmetric | docs/games/neon-arcade.js:269-274 | the overlap test gives the same answer whichever rectangle comes first |
| Geometry.Clamp | docs/games/neon-arcade.js:40-41 | a clamped value lies within the bounds and is unchanged when already inside |

## Left out

- Drawing, the HUD, DOM updates, `alert`, `localStorage`, and wiring up listeners and `requestAnimationFrame`: these are presentation and I/O. Keys arrive as explicit events or key sets.
- `Math.random()` and `Date.now()`: the drawn values and clock readings are parameters.
- `setTimeout` and `setInterval` callbacks: lava start, attack end, moto spawns, race countdown. Each is an event that the caller may interleave with frames at any point.
- Floating point: all fractional quantities are exact reals. IEEE rounding, for instance of the 0.016 basketball clock or the 1.35 flash factor, is not modelled.
- Runner obstacle `type` ("normal"/"spike"): it only affects drawing.
- Runner `localStorage` best score: the stored best is a field of the game state, starting from whatever the caller supplies.
- The block stacker's `draw` and the `animate` frame counter: `BlockGame.Frame` is one `update` call, stopped after game over as `animate` stops scheduling frames.
- Race car motion: `sin`/`cos` of the heading are not modelled. `Race.Update` takes the heading's components times speed as parameters and applies drift to them exactly.
- Race `MovingObstacle` paths: they are trigonometric, so each frame's rectangles are a parameter.
- Race `Track.update` and the theme: the theme only affects drawing.
- Race `startTime` handling: the lap time is the clock reading supplied with each frame, as the original measures every lap from the race start.
- Arcade: two exits touched in one collision pass would reuse one fresh level. This cannot happen, since each level has a single exit and it is the last obstacle.
- Arcade.CollideAll: its contract states the invariant and the replacement of the list. Per-kind effects are stated on Arcade.Collide.
- Runner.ObstacleFilter: states the counters' bounds rather than the exact list kept. The per-obstacle cases are on Runner.ResolveObstacle.
- Race.CheckCollisions: the car-to-car speed swap (×0.8) is in the definition, but its contract only states lap monotonicity.
- Basket.ScoreBoundedByShots: covers player 1. Player 2 is symmetric.

=== FILE: arcade.dfy ===
/**
 The lava climber: a square player steered in four directions across a
 level of walls, shield pick-ups, moving platforms and one exit, while lava
 rises from the bottom. Three zones; reaching the exit of the last one wins.
 The level layout comes from `Math.random` and is a parameter here; the
 delayed start of the lava (a `setTimeout` callback) is the event
 `StartLava`.
 */
module Arcade {
  import opened Geometry

  const PlayerSize: real := 20.0
  const Speed: real := 5.0
  /** Frames of protection a shield pick-up gives (5 s at 60 FPS). */
  const ShieldFrames: int := 300
  const TotalZones: int := 3
  const StartLavaSpeed: real := 0.5
  const LavaSpeedStep: real := 0.2
  const PlatformSpeed: real := 2.0

  datatype Player = Player(x: real, y: real, dx: real, dy: real, hasShield: bool, shieldDuration: int)

  datatype Dir = Left | Right | Up | Down | OtherDir

  /** The start position: centred, standing 10 pixels above the bottom. */
  function NewPlayer(width: real, height: real): (p: Player)
    ensures p.x + PlayerSize / 2.0 == width / 2.0 && p.y + PlayerSize + 10.0 == height
    ensures p.dx == 0.0 && p.dy == 0.0 && !p.hasShield && p.shieldDuration == 0
  {
    Player(width / 2.0 - PlayerSize / 2.0, height - PlayerSize - 10.0, 0.0, 0.0, false, 0)
  }

  /** `move(direction)`: one axis at full speed, the other stopped; any other
      direction leaves the velocity alone. */
  function Move(p: Player, d: Dir): (p': Player)
    ensures d == Left ==> p'.dx == -Speed && p'.dy == 0.0
    ensures d == Right ==> p'.dx == Speed && p'.dy == 0.0
    ensures d == Up ==> p'.dx == 0.0 && p'.dy == -Speed
    ensures d == Down ==> p'.dx == 0.0 && p'.dy == Speed
    ensures d == OtherDir ==> p' == p
    ensures p'.x == p.x && p'.y == p.y && p'.hasShield == p.hasShield && p'.shieldDuration == p.shieldDuration
  {
    match d
    case Left => p.(dx := -Speed, dy := 0.0)
    case Right => p.(dx := Speed, dy := 0.0)
    case Up => p.(dx := 0.0, dy := -Speed)
    case Down => p.(dx := 0.0, dy := Speed)
    case OtherDir => p
  }

  /** The `keyup` handler: any released key stops the player. */
  function Release(p: Player): (p': Player)
    ensures p'.dx == 0.0 && p'.dy == 0.0
    ensures p'.x == p.x && p'.y == p.y && p'.hasShield == p.hasShield && p'.shieldDuration == p.shieldDuration
  {
    p.(dx := 0.0, dy := 0.0)
  }

  /** `Player.update`: step, clamp into the canvas, count the shield down. */
  function PlayerUpdate(p: Player, width: real, height: real): (p': Player)
    ensures width >= PlayerSize ==> 0.0 <= p'.x <= width - PlayerSize
    ensures height >= PlayerSize ==> 0.0 <= p'.y <= height - PlayerSize
    ensures 0.0 <= p.x + p.dx <= width - PlayerSize ==> p'.x == p.x + p.dx
    ensures 0.0 <= p.y + p.dy <= height - PlayerSize ==> p'.y == p.y + p.dy
    ensures p'.dx == p.dx && p'.dy == p.dy
    ensures p.hasShield ==> p'.shieldDuration == p.shieldDuration - 1 && (p'.hasShield <==> p'.shieldDuration > 0)
    ensures !p.hasShield ==> !p'.hasShield && p'.shieldDuration == p.shieldDuration
  {
    var x := Clamp(p.x + p.dx, 0.0, width - PlayerSize);
    var y := Clamp(p.y + p.dy, 0.0, height - PlayerSize);
    var p1 := p.(x := x, y := y);
    if p1.hasShield then
      var d := p1.shieldDuration - 1;
      p1.(shieldDuration := d, hasShield := d > 0)
    else p1
  }

  datatype Kind = Wall | ShieldItem | Moving | Exit

  datatype Obstacle = Obstacle(x: real, y: real, w: real, h: real, kind: Kind, dx: real)

  function MakeObstacle(x: real, y: real, w: real, h: real, kind: Kind): (o: Obstacle)
    ensures o.kind == Moving ==> o.dx == PlatformSpeed
    ensures o.kind != Moving ==> o.dx == 0.0
  {
    Obstacle(x, y, w, h, kind, if kind == Moving then PlatformSpeed else 0.0)
  }

  /** Moving platforms go at speed 2 one way or the other; everything else is still. */
  predicate GoodSpeed(o: Obstacle)
  {
    if o.kind == Moving then o.dx == PlatformSpeed || o.dx == -PlatformSpeed else o.dx == 0.0
  }

  /** `Obstacle.update`: a moving platform steps and turns round when it
      touches either side of the canvas. */
  function ObstacleUpdate(o: Obstacle, width: real): (o': Obstacle)
    ensures GoodSpeed(o) ==> GoodSpeed(o')
    ensures o'.kind == o.kind && o'.y == o.y && o'.w == o.w && o'.h == o.h
    ensures o.kind != Moving ==> o' == o
    ensures o.kind == Moving ==> o'.x == o.x + o.dx
    ensures o.kind == Moving && GoodSpeed(o) ==> (o'.dx == -o.dx <==> (o'.x <= 0.0 || o'.x + o.w >= width))
  {
    if o.kind == Moving then
      var o1 := o.(x := o.x + o.dx);
      if o1.x <= 0.0 || o1.x + o1.w >= width then o1.(dx := -o1.dx) else o1
    else o
  }

  function UpdateAll(obs: seq<Obstacle>, width: real): (r: seq<Obstacle>)
    ensures |r| == |obs|
    ensures forall i :: 0 <= i < |obs| ==> r[i] == ObstacleUpdate(obs[i], width)
  {
    seq(|obs|, i requires 0 <= i < |obs| => ObstacleUpdate(obs[i], width))
  }

  // ---------------------------------------------------------------------
  // Level generation

  /** The 36 random values `generateLevel` draws, each in [0, 1). */
  predicate ValidDraws(draws: seq<real>)
  {
    |draws| == 36 && forall i :: 0 <= i < |draws| ==> 0.0 <= draws[i] < 1.0
  }

  /** The obstacle `draws[0]`, `draws[1]` place: x and y scaled to the room
      the canvas leaves for it on each axis. */
  function Place(draws: seq<real>, xRoom: real, yRoom: real, w: real, h: real, kind: Kind): (o: Obstacle)
    requires |draws| >= 2
    ensures o.kind == kind && o.w == w && o.h == h && GoodSpeed(o)
    ensures 0.0 <= draws[0] < 1.0 && 0.0 <= xRoom ==> 0.0 <= o.x <= xRoom
    ensures 0.0 <= draws[1] < 1.0 && 0.0 <= yRoom ==> 0.0 <= o.y <= yRoom
  {
    MakeObstacle(Scale(draws[0], xRoom), Scale(draws[1], yRoom), w, h, kind)
  }

  /** `count` obstacles of one kind and size, each placed by the next two draws. */
  function Scatter(draws: seq<real>, xRoom: real, yRoom: real, w: real, h: real, kind: Kind): (r: seq<Obstacle>)
    requires |draws| % 2 == 0
    ensures |r| == |draws| / 2
    ensures forall i :: 0 <= i < |r| ==> r[i].kind == kind && r[i].w == w && r[i].h == h && GoodSpeed(r[i])
    decreases |draws|
  {
    if |draws| == 0 then []
    else [Place(draws, xRoom, yRoom, w, h, kind)] + Scatter(draws[2..], xRoom, yRoom, w, h, kind)
  }

  /** `generateLevel`: ten 50×10 walls, three 20×20 shields, five 80×10
      moving platforms, and the 30×50 exit in the top-right corner. Walls
      keep 50 clear of the bottom edge, shields and platforms 20, and every
      obstacle its own width clear of the right edge. */
  function GenerateLevel(width: real, height: real, draws: seq<real>): (lvl: seq<Obstacle>)
    requires ValidDraws(draws)
    ensures |lvl| == 19
    ensures forall i :: 0 <= i < 10 ==> lvl[i].kind == Wall && lvl[i].w == 50.0 && lvl[i].h == 10.0
    ensures forall i :: 10 <= i < 13 ==> lvl[i].kind == ShieldItem && lvl[i].w == 20.0 && lvl[i].h == 20.0
    ensures forall i :: 13 <= i < 18 ==> lvl[i].kind == Moving && lvl[i].w == 80.0 && lvl[i].h == 10.0
    ensures lvl[18] == Obstacle(width - 30.0, 0.0, 30.0, 50.0, Exit, 0.0)
    ensures forall i :: 0 <= i < |lvl| ==> GoodSpeed(lvl[i])
    ensures 50.0 <= width ==> forall i :: 0 <= i < 10 ==> 0.0 <= lvl[i].x <= width - 50.0
    ensures 50.0 <= height ==> forall i :: 0 <= i < 10 ==> 0.0 <= lvl[i].y <= height - 50.0
    ensures 20.0 <= width ==> forall i :: 10 <= i < 13 ==> 0.0 <= lvl[i].x <= width - 20.0
    ensures 20.0 <= height ==> forall i :: 10 <= i < 18 ==> 0.0 <= lvl[i].y <= height - 20.0
    ensures 80.0 <= width ==> forall i :: 13 <= i < 18 ==> 0.0 <= lvl[i].x <= width - 80.0
  {
    var walls := Scatter(draws[..20], width - 50.0, height - 50.0, 50.0, 10.0, Wall);
    var shields := Scatter(draws[20..26], width - 20.0, height - 20.0, 20.0, 20.0, ShieldItem);
    var movers := Scatter(draws[26..36], width - 80.0, height - 20.0, 80.0, 10.0, Moving);
    ScatterInside(draws[..20], width - 50.0, height - 50.0, 50.0, 10.0, Wall);
    ScatterInside(draws[20..26], width - 20.0, height - 20.0, 20.0, 20.0, ShieldItem);
    ScatterInside(draws[26..36], width - 80.0, height - 20.0, 80.0, 10.0, Moving);
    var lvl := walls + shields + movers + [MakeObstacle(width - 30.0, 0.0, 30.0, 50.0, Exit)];
    assert forall i :: 0 <= i < 10 ==> lvl[i] == walls[i];
    assert forall i :: 10 <= i < 13 ==> lvl[i] == shields[i - 10];
    assert forall i :: 13 <= i < 18 ==> lvl[i] == movers[i - 13];
    lvl
  }

  /** Every scattered obstacle lies within the room on each axis that has any. */
  lemma {:induction false} ScatterInside(draws: seq<real>, xRoom: real, yRoom: real, w: real, h: real, kind: Kind)
    requires |draws| % 2 == 0
    requires forall i :: 0 <= i < |draws| ==> 0.0 <= draws[i] < 1.0
    ensures 0.0 <= xRoom ==> forall i :: 0 <= i < |Scatter(draws, xRoom, yRoom, w, h, kind)| ==>
              0.0 <= Scatter(draws, xRoom, yRoom, w, h, kind)[i].x <= xRoom
    ensures 0.0 <= yRoom ==> forall i :: 0 <= i < |Scatter(draws, xRoom, yRoom, w, h, kind)| ==>
              0.0 <= Scatter(draws, xRoom, yRoom, w, h, kind)[i].y <= yRoom
    decreases |draws|
  {
    if |draws| > 0 {
      var tail := draws[2..];
      assert forall i :: 0 <= i < |tail| ==> tail[i] == draws[i + 2];
      ScatterInside(tail, xRoom, yRoom, w, h, kind);
      var first := Place(draws, xRoom, yRoom, w, h, kind);
      var rest := Scatter(tail, xRoom, yRoom, w, h, kind);
      var r := Scatter(draws, xRoom, yRoom, w, h, kind);
      assert r == [first] + rest;
      assert 0.0 <= draws[0] < 1.0 && 0.0 <= draws[1] < 1.0;
      forall i | 0 <= i < |r|
        ensures 0.0 <= xRoom ==> 0.0 <= r[i].x <= xRoom
        ensures 0.0 <= yRoom ==> 0.0 <= r[i].y <= yRoom
      {
        if i == 0 {
          assert r[0] == first;
        } else {
          assert r[i] == rest[i - 1] && 0 <= i - 1 < |rest|;
        }
      }
    }
  }

  function CountKind(obs: seq<Obstacle>, k: Kind): (n: nat)
    ensures n <= |obs|
  {
    if |obs| == 0 then 0 else CountKind(obs[..|obs| - 1], k) + (if obs[|obs| - 1].kind == k then 1 else 0)
  }

  lemma {:induction false} CountKindAppend(a: seq<Obstacle>, b: seq<Obstacle>, k: Kind)
    ensures CountKind(a + b, k) == CountKind(a, k) + CountKind(b, k)
    decreases |b|
  {
    if |b| == 0 {
      assert a + b == a;
    } else {
      assert (a + b)[..|a + b| - 1] == a + b[..|b| - 1];
      CountKindAppend(a, b[..|b| - 1], k);
    }
  }

  /** Counting a stretch of one kind. */
  lemma {:induction false} CountKindUniform(obs: seq<Obstacle>, k: Kind, j: Kind)
    requires forall i :: 0 <= i < |obs| ==> obs[i].kind == k
    ensures CountKind(obs, j) == if j == k then |obs| else 0
    decreases |obs|
  {
    if |obs| > 0 {
      CountKindUniform(obs[..|obs| - 1], k, j);
    }
  }

  /** Moving the platforms keeps every obstacle's kind, so the count of each. */
  lemma {:induction false} CountKindUpdateAll(obs: seq<Obstacle>, width: real)
    ensures CountKind(UpdateAll(obs, width), Exit) == CountKind(obs, Exit)
    decreases |obs|
  {
    if |obs| > 0 {
      var n := |obs|;
      assert UpdateAll(obs, width)[..n - 1] == UpdateAll(obs[..n - 1], width);
      CountKindUpdateAll(obs[..n - 1], width);
    }
  }

  /** A generated level has exactly 10 walls, 3 shields, 5 moving
      platforms and 1 exit. */
  lemma LevelCounts(width: real, height: real, draws: seq<real>)
    requires ValidDraws(draws)
    ensures CountKind(GenerateLevel(width, height, draws), Wall) == 10
    ensures CountKind(GenerateLevel(width, height, draws), ShieldItem) == 3
    ensures CountKind(GenerateLevel(width, height, draws), Moving) == 5
    ensures CountKind(GenerateLevel(width, height, draws), Exit) == 1
  {
    var lvl := GenerateLevel(width, height, draws);
    var a, b, c, e := lvl[..10], lvl[10..13], lvl[13..18], lvl[18..];
    assert lvl == a + b + c + e;
    CountKindAppend(a + b + c, e, Wall);
    CountKindAppend(a + b + c, e, ShieldItem);
    CountKindAppend(a + b + c, e, Moving);
    CountKindAppend(a + b + c, e, Exit);
    CountKindAppend(a + b, c, Wall);
    CountKindAppend(a + b, c, ShieldItem);
    CountKindAppend(a + b, c, Moving);
    CountKindAppend(a + b, c, Exit);
    CountKindAppend(a, b, Wall);
    CountKindAppend(a, b, ShieldItem);
    CountKindAppend(a, b, Moving);
    CountKindAppend(a, b, Exit);
    forall j: Kind
      ensures CountKind(a, j) == (if j == Wall then 10 else 0)
      ensures CountKind(b, j) == (if j == ShieldItem then 3 else 0)
      ensures CountKind(c, j) == (if j == Moving then 5 else 0)
      ensures CountKind(e, j) == (if j == Exit then 1 else 0)
    {
      CountKindUniform(a, Wall, j);
      CountKindUniform(b, ShieldItem, j);
      CountKindUniform(c, Moving, j);
      CountKindUniform(e, Exit, j);
    }
  }

  // ---------------------------------------------------------------------
  // The game

  /** `gameOver` together with the text the last of `winGame` / `endGame`
      left on screen. */
  datatype Outcome = Playing | Won | Lost

  datatype Game = Game(
    width: real,
    height: real,
    player: Player,
    obstacles: seq<Obstacle>,
    lavaHeight: real,
    lavaSpeed: real,
    score: int,
    outcome: Outcome,
    zone: int,
    lavaStarted: bool)

  predicate Over(g: Game)
  {
    g.outcome != Playing
  }

  /** Lava speed in zone `z`: 0.5, raised by 0.2 for each later zone; a win
      does not raise it. */
  function LavaSpeedIn(z: int): real
  {
    StartLavaSpeed + LavaSpeedStep * ((if z < TotalZones then z else TotalZones) - 1) as real
  }

  /** The last obstacle is the only exit. */
  predicate ExitLast(obs: seq<Obstacle>)
  {
    |obs| > 0 && obs[|obs| - 1].kind == Exit && CountKind(obs, Exit) == 1
  }

  predicate Inv(g: Game)
  {
    && 1 <= g.zone <= TotalZones + 1
    && (g.outcome == Playing ==> g.zone <= TotalZones)
    && g.lavaSpeed == LavaSpeedIn(g.zone)
    && g.lavaHeight >= 0.0
    && g.score >= 0
    && (g.player.hasShield ==> 0 < g.player.shieldDuration <= ShieldFrames)
    && ExitLast(g.obstacles)
    && (forall i :: 0 <= i < |g.obstacles| ==> GoodSpeed(g.obstacles[i]))
  }

  lemma LevelExitLast(width: real, height: real, draws: seq<real>)
    requires ValidDraws(draws)
    ensures ExitLast(GenerateLevel(width, height, draws))
  {
    LevelCounts(width, height, draws);
  }

  /** `nextZone`: the next zone, or the win after the last one. A new zone
      puts the player back at the start, empties the lava, speeds it up by
      0.2, generates a new level and waits for the lava again. */
  function NextZone(g: Game, level: seq<Obstacle>): (g': Game)
    ensures g'.zone == g.zone + 1
    ensures g.zone + 1 > TotalZones ==> g' == g.(zone := g.zone + 1, outcome := Won)
    ensures g.zone + 1 <= TotalZones ==>
              && g'.player.x == g.width / 2.0 - PlayerSize / 2.0 && g'.player.y == g.height - PlayerSize - 10.0
              && g'.lavaHeight == 0.0 && g'.lavaSpeed == g.lavaSpeed + LavaSpeedStep
              && g'.obstacles == level && !g'.lavaStarted && g'.outcome == g.outcome
    ensures g'.player.dx == g.player.dx && g'.player.dy == g.player.dy
    ensures g'.player.hasShield == g.player.hasShield && g'.player.shieldDuration == g.player.shieldDuration
    ensures g'.score == g.score
  {
    var zone := g.zone + 1;
    if zone > TotalZones then g.(zone := zone, outcome := Won)
    else
      g.(zone := zone,
         player := g.player.(x := g.width / 2.0 - PlayerSize / 2.0, y := g.height - PlayerSize - 10.0),
         lavaHeight := 0.0, lavaSpeed := g.lavaSpeed + LavaSpeedStep,
         obstacles := level, lavaStarted := false)
  }

  function PlayerRect(p: Player): Rect
  {
    Rect(p.x, p.y, PlayerSize, PlayerSize)
  }

  function ObstacleRect(o: Obstacle): Rect
  {
    Rect(o.x, o.y, o.w, o.h)
  }

  /** The state the collision `forEach` carries: the game, whether
      `this.obstacles` is still the list being walked (a new zone replaces
      it), and the obstacles of that list kept so far. */
  datatype Walk = Walk(g: Game, live: bool, kept: seq<Obstacle>)

  /** The collision callback for one obstacle. A shield is picked up and
      leaves the list (a list already replaced by a new zone does not hold
      it); a wall or platform undoes this frame's step; the exit moves on. */
  function Collide(w: Walk, o: Obstacle, level: seq<Obstacle>): (w': Walk)
    ensures !Overlaps(PlayerRect(w.g.player), ObstacleRect(o)) ==> w' == w.(kept := w.kept + [o])
    ensures Overlaps(PlayerRect(w.g.player), ObstacleRect(o)) && o.kind == ShieldItem ==>
              && w'.g == w.g.(player := w.g.player.(hasShield := true, shieldDuration := ShieldFrames))
              && w'.kept == w.kept && w'.live == w.live
    ensures Overlaps(PlayerRect(w.g.player), ObstacleRect(o)) && (o.kind == Wall || o.kind == Moving) ==>
              && w'.g == w.g.(player := w.g.player.(x := w.g.player.x - w.g.player.dx, y := w.g.player.y - w.g.player.dy))
              && w'.kept == w.kept + [o] && w'.live == w.live
    ensures Overlaps(PlayerRect(w.g.player), ObstacleRect(o)) && o.kind == Exit ==>
              && w'.g == NextZone(w.g, level)
              && w'.kept == w.kept + [o] && (w'.live <==> w.live && w.g.zone + 1 > TotalZones)
  {
    if Overlaps(PlayerRect(w.g.player), ObstacleRect(o)) then
      match o.kind
      case ShieldItem => w.(g := w.g.(player := w.g.player.(hasShield := true, shieldDuration := ShieldFrames)))
      case Wall => w.(g := w.g.(player := w.g.player.(x := w.g.player.x - w.g.player.dx, y := w.g.player.y - w.g.player.dy)),
                      kept := w.kept + [o])
      case Moving => w.(g := w.g.(player := w.g.player.(x := w.g.player.x - w.g.player.dx, y := w.g.player.y - w.g.player.dy)),
                        kept := w.kept + [o])
      case Exit => Walk(NextZone(w.g, level), w.live && w.g.zone + 1 > TotalZones, w.kept + [o])
    else w.(kept := w.kept + [o])
  }

  /** The part of `Inv` about everything but the obstacle list. */
  predicate CoreInv(g: Game)
  {
    && 1 <= g.zone
    && (g.outcome == Playing ==> g.zone <= TotalZones)
    && g.lavaSpeed == LavaSpeedIn(g.zone)
    && g.lavaHeight >= 0.0
    && g.score >= 0
    && (g.player.hasShield ==> 0 < g.player.shieldDuration <= ShieldFrames)
  }

  predicate AllGood(obs: seq<Obstacle>)
  {
    forall i :: 0 <= i < |obs| ==> GoodSpeed(obs[i])
  }

  /** The whole collision `forEach` over the list as it was at the start of
      the pass. `level` is the layout a new zone would get. */
  function CollideAll(w: Walk, rest: seq<Obstacle>, level: seq<Obstacle>): (w': Walk)
    ensures CoreInv(w.g) ==> CoreInv(w'.g)
    ensures w'.live ==> w.live
    ensures w.live && !w'.live ==> w'.g.obstacles == level
    ensures !w.live && w.g.obstacles == level ==> w'.g.obstacles == level
    ensures w'.g.score == w.g.score && w'.g.width == w.g.width && w'.g.height == w.g.height
    decreases |rest|
  {
    if |rest| == 0 then w
    else CollideAll(Collide(w, rest[0], level), rest[1..], level)
  }

  lemma CountKindSingle(s: seq<Obstacle>, o: Obstacle, k: Kind)
    ensures CountKind(s + [o], k) == CountKind(s, k) + (if o.kind == k then 1 else 0)
  {
    assert (s + [o])[..|s|] == s;
  }

  lemma CountKindFirst(rest: seq<Obstacle>, k: Kind)
    requires |rest| > 0
    ensures CountKind(rest, k) == (if rest[0].kind == k then 1 else 0) + CountKind(rest[1..], k)
  {
    assert rest == [rest[0]] + rest[1..];
    CountKindAppend([rest[0]], rest[1..], k);
    assert [rest[0]][..0] == [];
  }

  /** Each exit walked over moves the zone on by at most one. */
  lemma {:induction false} CollideAllZone(w: Walk, rest: seq<Obstacle>, level: seq<Obstacle>)
    ensures CollideAll(w, rest, level).g.zone <= w.g.zone + CountKind(rest, Exit)
    decreases |rest|
  {
    if |rest| > 0 {
      CountKindFirst(rest, Exit);
      CollideAllZone(Collide(w, rest[0], level), rest[1..], level);
    }
  }

  /** While the walked list is still the game's list, the pass keeps every
      exit it walks over. */
  lemma {:induction false} CollideAllKeepsExits(w: Walk, rest: seq<Obstacle>, level: seq<Obstacle>)
    ensures CollideAll(w, rest, level).live ==>
              CountKind(CollideAll(w, rest, level).kept, Exit) == CountKind(w.kept, Exit) + CountKind(rest, Exit)
    decreases |rest|
  {
    if |rest| > 0 {
      CountKindFirst(rest, Exit);
      CountKindSingle(w.kept, rest[0], Exit);
      CollideAllKeepsExits(Collide(w, rest[0], level), rest[1..], level);
    }
  }

  /** ... and an exit it walks over last stays last. */
  lemma {:induction false} CollideAllExitLast(w: Walk, rest: seq<Obstacle>, level: seq<Obstacle>)
    requires |rest| > 0 && rest[|rest| - 1].kind == Exit
    ensures CollideAll(w, rest, level).live ==>
              var kept := CollideAll(w, rest, level).kept; |kept| > 0 && kept[|kept| - 1].kind == Exit
    decreases |rest|
  {
    if |rest| > 1 {
      CollideAllExitLast(Collide(w, rest[0], level), rest[1..], level);
    }
  }

  /** ... and keeps only obstacles with good platform speeds. */
  lemma {:induction false} CollideAllKeepsGood(w: Walk, rest: seq<Obstacle>, level: seq<Obstacle>)
    requires AllGood(w.kept) && AllGood(rest)
    ensures AllGood(CollideAll(w, rest, level).kept)
    decreases |rest|
  {
    if |rest| > 0 {
      assert AllGood(rest[1..]) by {
        forall i | 0 <= i < |rest[1..]| ensures GoodSpeed(rest[1..][i]) {
          assert rest[1..][i] == rest[i + 1];
        }
      }
      CollideAllKeepsGood(Collide(w, rest[0], level), rest[1..], level);
    }
  }

  /** The lava rule: rising lava that reaches the player's feet either uses
      up the shield, putting the player's bottom exactly on the lava line,
      or ends the game. */
  function Lava(g: Game): (g': Game)
    ensures !g.lavaStarted ==> g' == g
    ensures g.lavaStarted ==> g'.lavaHeight == g.lavaHeight + g.lavaSpeed
    ensures g.lavaStarted && g.player.y + PlayerSize > g.height - g'.lavaHeight && g.player.hasShield ==>
              && !g'.player.hasShield && g'.player.y + PlayerSize == g.height - g'.lavaHeight
              && g'.outcome == g.outcome
    ensures g.lavaStarted && g.player.y + PlayerSize > g.height - g'.lavaHeight && !g.player.hasShield ==>
              g'.outcome == Lost && g'.player == g.player
    ensures g.lavaStarted && g.player.y + PlayerSize <= g.height - g'.lavaHeight ==>
              g'.player == g.player && g'.outcome == g.outcome
    ensures g'.zone == g.zone && g'.lavaSpeed == g.lavaSpeed && g'.obstacles == g.obstacles && g'.score == g.score
  {
    if g.lavaStarted then
      var lava := g.lavaHeight + g.lavaSpeed;
      var g1 := g.(lavaHeight := lava);
      if g1.player.y + PlayerSize > g1.height - lava then
        if g1.player.hasShield then g1.(player := g1.player.(hasShield := false, y := g1.height - lava - PlayerSize))
        else g1.(outcome := Lost)
      else g1
    else g
  }

  /** `Game.update`: nothing once the game is over; otherwise move the
      player and the platforms, resolve collisions, raise the lava and count
      the frame. */
  function Update(g: Game, draws: seq<real>): (g': Game)
    requires ValidDraws(draws)
    ensures Over(g) ==> g' == g
    ensures !Over(g) ==> g'.score == g.score + 1
  {
    if Over(g) then g
    else
      var g2 := Lava(Resolve(g, draws));
      g2.(score := g2.score + 1)
  }

  /** The first half of a frame: move, then walk the collisions. */
  function Resolve(g: Game, draws: seq<real>): (g': Game)
    requires ValidDraws(draws)
    ensures g'.score == g.score
  {
    var p := PlayerUpdate(g.player, g.width, g.height);
    var snap := UpdateAll(g.obstacles, g.width);
    var w := CollideAll(Walk(g.(player := p, obstacles := snap), true, []), snap, GenerateLevel(g.width, g.height, draws));
    if w.live then w.g.(obstacles := w.kept) else w.g
  }

  /** A frame of a running game keeps the invariant. */
  lemma ResolveKeepsInv(g: Game, draws: seq<real>)
    requires ValidDraws(draws) && Inv(g) && !Over(g)
    ensures Inv(Resolve(g, draws))
  {
    var level := GenerateLevel(g.width, g.height, draws);
    LevelExitLast(g.width, g.height, draws);
    var p := PlayerUpdate(g.player, g.width, g.height);
    var snap := UpdateAll(g.obstacles, g.width);
    CountKindUpdateAll(g.obstacles, g.width);
    var w0 := Walk(g.(player := p, obstacles := snap), true, []);
    assert CoreInv(w0.g);
    CollideAllZone(w0, snap, level);
    CollideAllKeepsExits(w0, snap, level);
    CollideAllExitLast(w0, snap, level);
    CollideAllKeepsGood(w0, snap, level);
  }

  lemma UpdateKeepsInv(g: Game, draws: seq<real>)
    requires ValidDraws(draws) && Inv(g)
    ensures Inv(Update(g, draws))
  {
    if !Over(g) {
      ResolveKeepsInv(g, draws);
    }
  }

  /** `restart` (and the constructor): zone 1, score 0, lava back to its
      first speed and not yet rising, a new player and a new level. */
  function Restart(g: Game, draws: seq<real>): (g': Game)
    requires ValidDraws(draws)
    ensures Inv(g')
    ensures g'.zone == 1 && g'.score == 0 && g'.lavaSpeed == StartLavaSpeed && g'.lavaHeight == 0.0
    ensures g'.outcome == Playing && !g'.lavaStarted
    ensures g'.player == NewPlayer(g.width, g.height)
    ensures g'.obstacles == GenerateLevel(g.width, g.height, draws)
  {
    LevelExitLast(g.width, g.height, draws);
    g.(outcome := Playing, score := 0, lavaHeight := 0.0, lavaSpeed := StartLavaSpeed, zone := 1,
       player := NewPlayer(g.width, g.height), obstacles := GenerateLevel(g.width, g.height, draws),
       lavaStarted := false)
  }

  /** What can happen between two frames: a key pressed (handled even after
      game over) or released, the lava timer firing, a frame, a restart. */
  datatype Event = KeyDown(d: Dir) | KeyUp | StartLava | Frame(frameDraws: seq<real>) | Again(againDraws: seq<real>)

  predicate ValidEvent(e: Event)
  {
    match e
    case Frame(d) => ValidDraws(d)
    case Again(d) => ValidDraws(d)
    case _ => true
  }

  function Step(g: Game, e: Event): Game
    requires ValidEvent(e)
  {
    match e
    case KeyDown(d) => g.(player := Move(g.player, d))
    case KeyUp => g.(player := Release(g.player))
    case StartLava => g.(lavaStarted := true)
    case Frame(d) => Update(g, d)
    case Again(d) => Restart(g, d)
  }

  function Run(g: Game, evs: seq<Event>): Game
    requires forall i :: 0 <= i < |evs| ==> ValidEvent(evs[i])
    decreases |evs|
  {
    if |evs| == 0 then g else Run(Step(g, evs[0]), evs[1..])
  }

  /** Whatever happens, the zone stays within 1..4 (4 only once the game is
      over), the lava speed matches the zone, a shield never lasts more than
      300 frames, and every level keeps its single exit last. */
  lemma {:induction false} RunKeepsInv(g: Game, evs: seq<Event>)
    requires Inv(g)
    requires forall i :: 0 <= i < |evs| ==> ValidEvent(evs[i])
    ensures Inv(Run(g, evs))
    decreases |evs|
  {
    if |evs| > 0 {
      if evs[0].Frame? {
        UpdateKeepsInv(g, evs[0].frameDraws);
      }
      assert forall i :: 0 <= i < |evs[1..]| ==> evs[1..][i] == evs[i + 1];
      RunKeepsInv(Step(g, evs[0]), evs[1..]);
    }
  }

  /** The win: touching the exit of the last zone ends the game as won. */
  lemma LastExitWins(w: Walk, o: Obstacle, level: seq<Obstacle>)
    requires w.g.zone == TotalZones && o.kind == Exit
    requires Overlaps(PlayerRect(w.g.player), ObstacleRect(o))
    ensures Collide(w, o, level).g.outcome == Won && Over(Collide(w, o, level).g)
  {
  }
}

=== FILE: basket.dfy ===
/**
 Two-player basketball against a 60-second clock: each player runs, jumps
 and shoots balls that fly in a parabola; a ball that touches the hoop
 scores one point for its shooter, once, and disappears. The 16 ms clock
 step is an exact real.
 */
module Basket {
  import opened Geometry

  const PlayerSize: real := 30.0
  const JumpForce: real := -15.0
  const Gravity: real := 0.8
  const StepX: real := 5.0
  const BallRadius: real := 10.0
  const ShotSpeedY: real := -10.0
  const ShotSpeedX: real := 4.0
  const BallGravity: real := 0.2
  const HoopWidth: real := 80.0
  const HoopHeight: real := 10.0
  const HoopY: real := 150.0
  const GameSeconds: real := 60.0
  const Tick: real := 0.016

  datatype Ball = Ball(x: real, y: real, dx: real, dy: real, offScreen: bool, scored: bool)

  /** The hoop: 80×10, centred, its top at y = 150. */
  function Hoop(width: real): (r: Rect)
    ensures r.w == HoopWidth && r.h == HoopHeight && r.y == HoopY
    ensures r.x + r.w / 2.0 == width / 2.0
  {
    Rect(width / 2.0 - HoopWidth / 2.0, HoopY, HoopWidth, HoopHeight)
  }

  /** The scoring test: the ball's vertical extent reaches the hoop's and
      its centre lies strictly between the hoop's ends. */
  predicate InHoop(b: Ball, width: real)
  {
    var hoop := Hoop(width);
    && b.y + BallRadius >= hoop.y
    && b.y - BallRadius <= hoop.y + hoop.h
    && b.x > hoop.x && b.x < hoop.x + hoop.w
  }

  datatype BallStep = BallStep(ball: Ball, point: bool)

  /** `Ball.update`: move, gravity, score on touching the hoop if not yet
      scored, and go off-screen once below the canvas or scored. */
  function BallUpdate(b: Ball, width: real, height: real): (r: BallStep)
    ensures r.ball.x == b.x + b.dx && r.ball.y == b.y + b.dy && r.ball.dy == b.dy + BallGravity && r.ball.dx == b.dx
    ensures r.point <==> !b.scored && InHoop(r.ball, width)
    ensures r.ball.scored <==> b.scored || r.point
    ensures r.point ==> r.ball.offScreen
    ensures b.scored ==> !r.point && r.ball.offScreen
    ensures r.ball.offScreen <==> b.offScreen || r.ball.y > height || r.ball.scored
  {
    var moved := b.(y := b.y + b.dy, x := b.x + b.dx, dy := b.dy + BallGravity);
    var point := !moved.scored && InHoop(moved, width);
    var b1 := if point then moved.(scored := true) else moved;
    var b2 := if b1.y > height || b1.scored then b1.(offScreen := true) else b1;
    BallStep(b2, point)
  }

  datatype Player = Player(x: real, y: real, dy: real, grounded: bool, score: int, balls: seq<Ball>)

  /** The floor line for a player's top edge. */
  function Floor(height: real): real
  {
    height - PlayerSize - 10.0
  }

  /** The keyboard player starts at x = 50, the other 80 from the right. */
  function NewPlayer(width: real, height: real, keyboard: bool): (p: Player)
    ensures p.x == (if keyboard then 50.0 else width - 80.0) && p.y == Floor(height)
    ensures p.grounded && p.score == 0 && p.balls == []
  {
    Player(if keyboard then 50.0 else width - 80.0, Floor(height), 0.0, true, 0, [])
  }

  /** `jump`: only from the ground. */
  function Jump(p: Player): (p': Player)
    ensures p.grounded ==> p'.dy == JumpForce && !p'.grounded
    ensures !p.grounded ==> p' == p
    ensures p'.x == p.x && p'.y == p.y && p'.score == p.score && p'.balls == p.balls
  {
    if p.grounded then p.(dy := JumpForce, grounded := false) else p
  }

  datatype Dir = Left | Right

  /** `move(direction)`: a step of 5, then clamped into the canvas. */
  function Move(p: Player, d: Dir, width: real): (p': Player)
    ensures width >= PlayerSize ==> 0.0 <= p'.x <= width - PlayerSize
    ensures var x := if d == Left then p.x - StepX else p.x + StepX;
            && (0.0 <= x <= width - PlayerSize ==> p'.x == x)
            && (x < 0.0 ==> p'.x == 0.0)
            && (0.0 <= width - PlayerSize < x ==> p'.x == width - PlayerSize)
    ensures p'.y == p.y && p'.score == p.score && p'.balls == p.balls && p'.grounded == p.grounded
  {
    var x := if d == Left then p.x - StepX else p.x + StepX;
    p.(x := Clamp(x, 0.0, width - PlayerSize))
  }

  /** `shoot`: a ball from the player's top centre, rising at 10 and
      heading 4 a frame towards the hoop's side of the canvas. */
  function Shoot(p: Player, width: real): (p': Player)
    ensures |p'.balls| == |p.balls| + 1 && p'.balls[..|p.balls|] == p.balls
    ensures var b := p'.balls[|p.balls|];
            && b.x == p.x + PlayerSize / 2.0 && b.y == p.y && b.dy == ShotSpeedY
            && b.dx == (if p.x > width / 2.0 then -ShotSpeedX else ShotSpeedX)
            && !b.scored && !b.offScreen
    ensures p'.x == p.x && p'.y == p.y && p'.score == p.score
  {
    var b := Ball(p.x + PlayerSize / 2.0, p.y, if p.x > width / 2.0 then -ShotSpeedX else ShotSpeedX, ShotSpeedY, false, false);
    p.(balls := p.balls + [b])
  }

  /** Every ball in flight: updated, with the points they earned and the
      ones still on screen. */
  datatype Flight = Flight(balls: seq<Ball>, points: nat)

  /** `balls.forEach(ball => ball.update())` followed by the filter: the
      kept balls are the updated ones still on screen, in order, and the
      points are the updates that met the hoop. */
  function FlyAll(balls: seq<Ball>, width: real, height: real): (r: Flight)
    ensures r.balls == OnScreen(Steps(balls, width, height))
    ensures r.points == Points(Steps(balls, width, height))
    ensures r.points <= |balls|
    ensures |r.balls| <= |balls|
    ensures forall i :: 0 <= i < |r.balls| ==> !r.balls[i].offScreen && !r.balls[i].scored
    ensures (forall i :: 0 <= i < |balls| ==> !balls[i].scored) ==> r.points == |balls| - |r.balls| - CountLost(balls, width, height)
    decreases |balls|
  {
    if |balls| == 0 then Flight([], 0)
    else
      var s := BallUpdate(balls[0], width, height);
      var rest := FlyAll(balls[1..], width, height);
      assert Steps(balls, width, height)[1..] == Steps(balls[1..], width, height);
      Flight((if s.ball.offScreen then [] else [s.ball]) + rest.balls, (if s.point then 1 else 0) + rest.points)
  }

  /** Every ball updated once, each on its own. */
  function Steps(balls: seq<Ball>, width: real, height: real): (s: seq<BallStep>)
    ensures |s| == |balls|
  {
    seq(|balls|, i requires 0 <= i < |balls| => BallUpdate(balls[i], width, height))
  }

  /** The balls of `steps` still on screen, in order. */
  function OnScreen(steps: seq<BallStep>): seq<Ball>
    decreases |steps|
  {
    if |steps| == 0 then [] else (if steps[0].ball.offScreen then [] else [steps[0].ball]) + OnScreen(steps[1..])
  }

  /** How many of `steps` met the hoop. */
  function Points(steps: seq<BallStep>): nat
    decreases |steps|
  {
    if |steps| == 0 then 0 else (if steps[0].point then 1 else 0) + Points(steps[1..])
  }

  /** Balls that leave the canvas this frame without scoring. */
  function CountLost(balls: seq<Ball>, width: real, height: real): nat
    decreases |balls|
  {
    if |balls| == 0 then 0
    else
      var s := BallUpdate(balls[0], width, height);
      (if s.ball.offScreen && !s.point then 1 else 0) + CountLost(balls[1..], width, height)
  }

  /** `Player.update`: gravity and landing, then every ball moves and the
      ones gone off screen (scored or fallen) are dropped. */
  function PlayerUpdate(p: Player, width: real, height: real): (p': Player)
    ensures p'.y <= Floor(height)
    ensures p.y + p.dy + Gravity > Floor(height) ==> p'.y == Floor(height) && p'.dy == 0.0 && p'.grounded
    ensures p.y + p.dy + Gravity <= Floor(height) ==> p'.y == p.y + p.dy + Gravity && p'.grounded == p.grounded
    ensures p.score <= p'.score <= p.score + |p.balls|
    ensures Unscored(p.balls) ==> p'.score + |p'.balls| <= p.score + |p.balls|
    ensures |p'.balls| <= |p.balls|
    ensures forall i :: 0 <= i < |p'.balls| ==> !p'.balls[i].scored && !p'.balls[i].offScreen
    ensures p'.x == p.x
  {
    var dy := p.dy + Gravity;
    var y := p.y + dy;
    var p1 := if y > Floor(height) then p.(y := Floor(height), dy := 0.0, grounded := true) else p.(y := y, dy := dy);
    var f := FlyAll(p1.balls, width, height);
    p1.(balls := f.balls, score := p1.score + f.points)
  }

  datatype Game = Game(width: real, height: real, p1: Player, p2: Player, over: bool, timer: real)

  function NewGame(width: real, height: real): (g: Game)
    ensures Inv(g) && !g.over && g.timer == GameSeconds
    ensures g.p1 == NewPlayer(width, height, true) && g.p2 == NewPlayer(width, height, false)
    ensures g.width == width && g.height == height
  {
    Game(width, height, NewPlayer(width, height, true), NewPlayer(width, height, false), false, GameSeconds)
  }

  /** `Game.update`: both players always update (the balls keep flying and
      scoring after the final whistle); the clock runs only until it ends
      the game. */
  function Update(g: Game): (g': Game)
    ensures !g.over ==> g'.timer == g.timer - Tick && (g'.over <==> g'.timer <= 0.0)
    ensures g.over ==> g'.over && g'.timer == g.timer
    ensures g'.p1.score >= g.p1.score && g'.p2.score >= g.p2.score
  {
    var g1 := g.(p1 := PlayerUpdate(g.p1, g.width, g.height), p2 := PlayerUpdate(g.p2, g.width, g.height));
    if !g1.over then
      var t := g1.timer - Tick;
      g1.(timer := t, over := t <= 0.0)
    else g1
  }

  /** The clock stays above 0 while the game runs; no ball in a player's
      list has scored yet, so none can score twice. */
  predicate Inv(g: Game)
  {
    && (!g.over ==> g.timer > 0.0)
    && g.p1.score >= 0 && g.p2.score >= 0
    && Unscored(g.p1.balls) && Unscored(g.p2.balls)
  }

  predicate Unscored(balls: seq<Ball>)
  {
    forall i :: 0 <= i < |balls| ==> !balls[i].scored
  }

  datatype Control = GoLeft | GoRight | JumpKey | ShootKey

  function Press(p: Player, c: Control, width: real): (p': Player)
    ensures Unscored(p.balls) ==> Unscored(p'.balls)
    ensures p'.score == p.score
    ensures c == GoLeft ==> p' == Move(p, Left, width)
    ensures c == GoRight ==> p' == Move(p, Right, width)
    ensures c == JumpKey ==> p' == Jump(p)
    ensures c == ShootKey ==> p' == Shoot(p, width)
  {
    match c
    case GoLeft => Move(p, Left, width)
    case GoRight => Move(p, Right, width)
    case JumpKey => Jump(p)
    case ShootKey => Shoot(p, width)
  }

  datatype Event = Frame | Key1(c1: Control) | Key2(c2: Control)

  function Step(g: Game, e: Event): (g': Game)
    ensures Inv(g) ==> Inv(g')
  {
    match e
    case Frame => Update(g)
    case Key1(c) => g.(p1 := Press(g.p1, c, g.width))
    case Key2(c) => g.(p2 := Press(g.p2, c, g.width))
  }

  function Run(g: Game, evs: seq<Event>): Game
    decreases |evs|
  {
    if |evs| == 0 then g else Run(Step(g, evs[0]), evs[1..])
  }

  /** Each point comes from a ball: over any run, a player's score grows by
      at most the number of shots that player fired. */
  lemma {:induction false} ScoreBoundedByShots(g: Game, evs: seq<Event>)
    requires Inv(g)
    ensures Run(g, evs).p1.score + |Run(g, evs).p1.balls| <= g.p1.score + |g.p1.balls| + Shots1(evs)
    ensures Inv(Run(g, evs))
    decreases |evs|
  {
    if |evs| > 0 {
      StepShots(g, evs[0]);
      ScoreBoundedByShots(Step(g, evs[0]), evs[1..]);
    }
  }

  /** One event adds at most one to player 1's points plus balls in flight,
      and only a shot by player 1 does. */
  lemma StepShots(g: Game, e: Event)
    requires Inv(g)
    ensures Step(g, e).p1.score + |Step(g, e).p1.balls| <= g.p1.score + |g.p1.balls| + (if e == Key1(ShootKey) then 1 else 0)
  {
  }

  /** Shots fired by the first player. */
  function Shots1(evs: seq<Event>): nat
    decreases |evs|
  {
    if |evs| == 0 then 0 else (if evs[0] == Key1(ShootKey) then 1 else 0) + Shots1(evs[1..])
  }
}

=== FILE: block_game.dfy ===
/**
 The block stacker's game state and its three entry points: a key press
 (`handleInput`), an animation frame (`update`, with the drop timer) and
 `restart`. The random piece type of `newBlock` is a parameter.
 */
module BlockGame {
  import opened Tetromino
  import opened BlockGrid

  /** Milliseconds between two automatic drops. */
  const DropInterval: int := 1000

  datatype Game = Game(
    grid: Grid,
    score: int,
    over: bool,
    current: Block,
    dropCounter: int,
    lastTime: int)

  /** What every reachable state satisfies: a 10 × 20 field and a rectangular
      current piece whose squares all lie on the field (they may overlap a
      filled cell right after a spawn: spawning does not check for room). */
  predicate Inv(s: Game)
  {
    && WellFormed(s.grid)
    && Rectangular(s.current.pattern)
    && InGrid(s.current)
  }

  /** `restart` (and the constructor): empty field, score 0, a new piece of
      type `next`, timers at 0. */
  function Restart(next: Kind): (s: Game)
    ensures Inv(s)
    ensures !s.over && s.score == 0
    ensures forall y, x :: 0 <= y < Height && 0 <= x < Width ==> s.grid[y][x] == Empty
    ensures s.current == NewBlock(next) && s.current.x == 3 && s.current.y == 0
    ensures s.dropCounter == 0 && s.lastTime == 0
  {
    Game(EmptyGrid(), 0, false, NewBlock(next), 0, 0)
  }

  datatype Key = ArrowLeft | ArrowRight | ArrowDown | ArrowUp | Enter | OtherKey

  /** A horizontal or downward step, taken only when the piece fits there. */
  function Shift(s: Game, dx: int, dy: int): (s': Game)
    requires Inv(s)
    ensures Inv(s')
    ensures s' == s || (Fits(s.grid, s.current, dx, dy)
                        && s' == s.(current := s.current.(x := s.current.x + dx, y := s.current.y + dy)))
    ensures Fits(s.grid, s.current, dx, dy) ==> s'.current.x == s.current.x + dx && s'.current.y == s.current.y + dy
  {
    if IsValidMove(s.grid, s.current, dx, dy) then
      FitsInGrid(s.grid, s.current, dx, dy);
      s.(current := s.current.(x := s.current.x + dx, y := s.current.y + dy))
    else s
  }

  /** The `ArrowUp` case: rotate, and put the old pattern back when the
      rotated piece does not fit where it is. */
  function TurnOrRevert(s: Game): (s': Game)
    requires Inv(s)
    ensures Inv(s')
    ensures s'.grid == s.grid && s'.current.x == s.current.x && s'.current.y == s.current.y
    ensures s'.current.kind == s.current.kind
    ensures Fits(s.grid, RotateBlock(s.current), 0, 0) ==> s'.current.pattern == Rotate(s.current.pattern)
    ensures !Fits(s.grid, RotateBlock(s.current), 0, 0) ==> s' == s
  {
    var turned := RotateBlock(s.current);
    if IsValidMove(s.grid, turned, 0, 0) then
      FitsInGrid(s.grid, turned, 0, 0);
      s.(current := turned)
    else s
  }

  /** `handleInput`: after game over only Enter does anything (it restarts);
      otherwise the arrows move or turn the piece, never onto an occupied or
      off-field cell, and nothing else of the state changes. */
  function HandleInput(s: Game, key: Key, next: Kind): (s': Game)
    requires Inv(s)
    ensures Inv(s')
    ensures s.over && key == Enter ==> s' == Restart(next)
    ensures s.over && key != Enter ==> s' == s
    ensures !s.over ==> && s'.grid == s.grid && s'.score == s.score && !s'.over
                        && s'.dropCounter == s.dropCounter && s'.lastTime == s.lastTime
                        && s'.current.kind == s.current.kind
    ensures !s.over && Fits(s.grid, s.current, 0, 0) ==> Fits(s'.grid, s'.current, 0, 0)
    ensures !s.over && key == ArrowLeft ==> s' == Shift(s, -1, 0)
    ensures !s.over && key == ArrowRight ==> s' == Shift(s, 1, 0)
    ensures !s.over && key == ArrowDown ==> s' == Shift(s, 0, 1)
    ensures !s.over && key == ArrowUp ==> s' == TurnOrRevert(s)
    ensures !s.over && (key == Enter || key == OtherKey) ==> s' == s
  {
    if s.over then
      if key == Enter then Restart(next) else s
    else
      match key
      case ArrowLeft => Shift(s, -1, 0)
      case ArrowRight => Shift(s, 1, 0)
      case ArrowDown => Shift(s, 0, 1)
      case ArrowUp => TurnOrRevert(s)
      case _ => s
  }

  /** A filled cell in the top row. */
  predicate TopRowTaken(g: Grid)
    requires WellFormed(g)
  {
    exists x :: 0 <= x < Width && g[0][x] != Empty
  }

  /** A new piece lies on the field. */
  lemma SpawnInGrid(k: Kind)
    ensures Rectangular(NewBlock(k).pattern) && InGrid(NewBlock(k))
  {
  }

  /** A score rise of 100 per line is a whole number of lines. */
  lemma WholeLines(before: int, after: int, k: nat)
    requires after == before + PointsPerLine * k
    ensures after >= before && (after - before) % PointsPerLine == 0 && (after - before) / PointsPerLine == k
  {
  }

  /** The landing branch of `update`: merge the piece, clear rows, then
      either end the game (top row taken) or spawn a piece of type `next`. */
  function Lock(s: Game, next: Kind): (s': Game)
    requires Inv(s)
    ensures Inv(s')
    ensures s'.lastTime == s.lastTime
    ensures s'.score >= s.score
    ensures (s'.score - s.score) % PointsPerLine == 0
    ensures ClearedBy(Merge(s.grid, s.current), s'.grid, (s'.score - s.score) / PointsPerLine)
    ensures s'.over <==> s.over || TopRowTaken(s'.grid)
    ensures !s'.over ==> s'.current == NewBlock(next) && s'.dropCounter == 0
  {
    var c := CheckLines(Merge(s.grid, s.current), s.score);
    WholeLines(s.score, c.score, c.lines);
    Settle(s, c.grid, c.score, next)
  }

  /** After the clear: the game ends when the top row of the new field `g`
      is taken, and otherwise a piece of type `next` spawns. */
  function Settle(s: Game, g: Grid, score: int, next: Kind): (s': Game)
    requires Inv(s) && WellFormed(g)
    ensures Inv(s')
    ensures s'.grid == g && s'.score == score && s'.lastTime == s.lastTime
    ensures s'.over <==> s.over || TopRowTaken(g)
    ensures !s'.over ==> s'.current == NewBlock(next) && s'.dropCounter == 0
  {
    SpawnInGrid(next);
    if TopRowTaken(g) then s.(grid := g, score := score, over := true)
    else s.(grid := g, score := score, current := NewBlock(next), dropCounter := 0)
  }

  /** `update(time)`: advance the drop counter by the elapsed time; when it
      passes the interval, move the piece down one row if it fits, otherwise
      lock it into the field, clear rows, and either end the game (top row
      taken; the counter is then left as it is) or spawn a piece of type
      `next` at (3, 0). */
  function Update(s: Game, time: int, next: Kind): (s': Game)
    requires Inv(s)
    ensures Inv(s')
    ensures s'.lastTime == time
    ensures s.dropCounter + (time - s.lastTime) <= DropInterval ==>
              s' == s.(lastTime := time, dropCounter := s.dropCounter + (time - s.lastTime))
    ensures s.dropCounter + (time - s.lastTime) > DropInterval && Fits(s.grid, s.current, 0, 1) ==>
              s' == s.(current := s.current.(y := s.current.y + 1), lastTime := time, dropCounter := 0)
    ensures s.dropCounter + (time - s.lastTime) > DropInterval && !Fits(s.grid, s.current, 0, 1) ==>
              s' == Lock(s.(lastTime := time, dropCounter := s.dropCounter + (time - s.lastTime)), next)
    ensures s'.score >= s.score
  {
    var counter := s.dropCounter + (time - s.lastTime);
    var s1 := s.(lastTime := time, dropCounter := counter);
    if counter > DropInterval then
      if IsValidMove(s.grid, s.current, 0, 1) then
        FitsInGrid(s.grid, s.current, 0, 1);
        s1.(current := s.current.(y := s.current.y + 1), dropCounter := 0)
      else Lock(s1, next)
    else s1
  }

  /** One animation frame: `animate` stops requesting frames once the game is
      over, so no further update happens until a restart. */
  function Frame(s: Game, time: int, next: Kind): (s': Game)
    requires Inv(s)
    ensures Inv(s')
    ensures s.over ==> s' == s
    ensures s'.score >= s.score
    ensures s.over ==> s'.over
  {
    if s.over then s else Update(s, time, next)
  }
}

=== FILE: block_grid.dfy ===
/**
 The playing field of the block stacker: a 10 × 20 grid of cells, the
 placement test (`isValidMove`), writing a landed piece into the grid
 (`merge`) and the row clear with its score (`checkLines`).

 The row clear follows the code as written: it walks from the bottom row
 upwards and, on finding a full row, splices it out and puts an empty row on
 top. The rows above then move down one place, but the walk still goes on to
 the next index up, so the row that has just moved into the cleared index is
 not examined in this pass. Two full rows one above the other therefore lose
 only the lower one (`ClearLinesSkipsRowAboveCleared`).
 */
module BlockGrid {
  import opened Tetromino

  /** `0` for an empty cell, the piece letter for a filled one. */
  datatype Cell = Empty | Filled(kind: Kind)

  type Row = seq<Cell>

  /** Row 0 is the top of the field. */
  type Grid = seq<Row>

  const Width: nat := 10
  const Height: nat := 20
  const PointsPerLine: nat := 100

  predicate WellFormed(g: Grid)
  {
    |g| == Height && forall y :: 0 <= y < |g| ==> |g[y]| == Width
  }

  function EmptyRow(): (row: Row)
    ensures |row| == Width && forall x :: 0 <= x < Width ==> row[x] == Empty
  {
    seq(Width, i => Empty)
  }

  function Empties(k: nat): (rows: Grid)
    ensures |rows| == k
    ensures forall i :: 0 <= i < k ==> rows[i] == EmptyRow()
  {
    seq(k, i => EmptyRow())
  }

  /** The field of the constructor and of `restart`. */
  function EmptyGrid(): (g: Grid)
    ensures WellFormed(g)
    ensures forall y, x :: 0 <= y < Height && 0 <= x < Width ==> g[y][x] == Empty
  {
    Empties(Height)
  }

  // ---------------------------------------------------------------------
  // Placement

  /** Cell (x, y) lies on the field and holds nothing. */
  predicate Free(g: Grid, x: int, y: int)
    requires WellFormed(g)
  {
    0 <= x < Width && 0 <= y < Height && g[y][x] == Empty
  }

  /** Every filled cell of the piece, shifted by (dx, dy), lands on a free
      cell of the field; empty pattern cells impose nothing. */
  predicate Fits(g: Grid, b: Block, dx: int, dy: int)
    requires WellFormed(g)
  {
    forall r, c :: 0 <= r < |b.pattern| && 0 <= c < |b.pattern[r]| && b.pattern[r][c] ==>
      Free(g, b.x + dx + c, b.y + dy + r)
  }

  /** The test `isValidMove` applies to one pattern cell, in the source's
      order: value, then the four bounds, then the grid cell. */
  predicate CellValid(g: Grid, value: bool, newX: int, newY: int)
    requires WellFormed(g)
  {
    !value || (newX >= 0 && newX < Width && newY < Height && newY >= 0 && g[newY][newX] == Empty)
  }

  /** `row.every(...)` over the cells of pattern row `r` from column `c` on. */
  function RowValid(g: Grid, b: Block, dx: int, dy: int, r: nat, c: nat): (ok: bool)
    requires WellFormed(g)
    requires r < |b.pattern| && c <= |b.pattern[r]|
    ensures ok <==> forall k :: c <= k < |b.pattern[r]| && b.pattern[r][k] ==>
                      Free(g, b.x + dx + k, b.y + dy + r)
    decreases |b.pattern[r]| - c
  {
    if c == |b.pattern[r]| then true
    else CellValid(g, b.pattern[r][c], c + b.x + dx, r + b.y + dy) && RowValid(g, b, dx, dy, r, c + 1)
  }

  /** `pattern.every(...)` over the pattern rows from `r` on. */
  function RowsValid(g: Grid, b: Block, dx: int, dy: int, r: nat): (ok: bool)
    requires WellFormed(g)
    requires r <= |b.pattern|
    ensures ok <==> forall r', c :: r <= r' < |b.pattern| && 0 <= c < |b.pattern[r']| && b.pattern[r'][c] ==>
                      Free(g, b.x + dx + c, b.y + dy + r')
    decreases |b.pattern| - r
  {
    if r == |b.pattern| then true
    else RowValid(g, b, dx, dy, r, 0) && RowsValid(g, b, dx, dy, r + 1)
  }

  /** `isValidMove(block, offsetX, offsetY)`. */
  function IsValidMove(g: Grid, b: Block, dx: int, dy: int): (ok: bool)
    requires WellFormed(g)
    ensures ok <==> Fits(g, b, dx, dy)
  {
    RowsValid(g, b, dx, dy, 0)
  }

  // ---------------------------------------------------------------------
  // Merging a landed piece

  /** Every filled cell of the piece lies on the field (occupied or not). */
  predicate InGrid(b: Block)
  {
    forall r, c :: 0 <= r < |b.pattern| && 0 <= c < |b.pattern[r]| && b.pattern[r][c] ==>
      0 <= b.x + c < Width && 0 <= b.y + r < Height
  }

  /** A piece that fits anywhere lies on the field there. */
  lemma FitsInGrid(g: Grid, b: Block, dx: int, dy: int)
    requires WellFormed(g) && Fits(g, b, dx, dy)
    ensures InGrid(b.(x := b.x + dx, y := b.y + dy))
  {
  }

  /** Field cell (x, y) lies under a filled cell of the piece. */
  predicate Covers(b: Block, x: int, y: int)
  {
    && 0 <= y - b.y < |b.pattern|
    && 0 <= x - b.x < |b.pattern[y - b.y]|
    && b.pattern[y - b.y][x - b.x]
  }

  function SetCell(g: Grid, x: nat, y: nat, v: Cell): (g': Grid)
    requires WellFormed(g) && x < Width && y < Height
    ensures WellFormed(g')
    ensures forall y', x' :: 0 <= y' < Height && 0 <= x' < Width ==>
              g'[y'][x'] == if x' == x && y' == y then v else g[y'][x']
  {
    g[y := g[y][x := v]]
  }

  /** The inner `forEach` of `merge`: pattern row `r`, columns `c` onwards. */
  function MergeRow(g: Grid, b: Block, r: nat, c: nat): (g': Grid)
    requires WellFormed(g) && InGrid(b)
    requires r < |b.pattern| && c <= |b.pattern[r]|
    ensures WellFormed(g')
    ensures forall y, x :: 0 <= y < Height && 0 <= x < Width ==>
              g'[y][x] == if y == b.y + r && c <= x - b.x < |b.pattern[r]| && b.pattern[r][x - b.x]
                          then Filled(b.kind) else g[y][x]
    decreases |b.pattern[r]| - c
  {
    if c == |b.pattern[r]| then g
    else if b.pattern[r][c] then MergeRow(SetCell(g, b.x + c, b.y + r, Filled(b.kind)), b, r, c + 1)
    else MergeRow(g, b, r, c + 1)
  }

  /** The outer `forEach` of `merge`: pattern rows `r` onwards. */
  function MergeRows(g: Grid, b: Block, r: nat): (g': Grid)
    requires WellFormed(g) && InGrid(b)
    requires r <= |b.pattern|
    ensures WellFormed(g')
    ensures forall y, x :: 0 <= y < Height && 0 <= x < Width ==>
              g'[y][x] == if r <= y - b.y && Covers(b, x, y) then Filled(b.kind) else g[y][x]
    decreases |b.pattern| - r
  {
    if r == |b.pattern| then g
    else MergeRows(MergeRow(g, b, r, 0), b, r + 1)
  }

  /** `merge`: the piece's type is written into exactly the cells under its
      filled pattern cells; every other cell keeps its content. */
  function Merge(g: Grid, b: Block): (g': Grid)
    requires WellFormed(g) && InGrid(b)
    ensures WellFormed(g')
    ensures forall y, x :: 0 <= y < Height && 0 <= x < Width ==>
              g'[y][x] == if Covers(b, x, y) then Filled(b.kind) else g[y][x]
  {
    MergeRows(g, b, 0)
  }

  // ---------------------------------------------------------------------
  // Clearing rows

  /** `row.every(value => value)`: no empty cell. */
  predicate Full(row: Row)
  {
    forall x :: 0 <= x < |row| ==> row[x] != Empty
  }

  lemma EmptyRowNotFull()
    ensures !Full(EmptyRow())
  {
    assert EmptyRow()[0] == Empty;
  }

  /** The rows that are not full, in order. */
  function NonFull(s: Grid): (t: Grid)
    ensures |t| <= |s|
  {
    if |s| == 0 then [] else (if Full(s[0]) then [] else [s[0]]) + NonFull(s[1..])
  }

  lemma {:induction false} NonFullAppend(a: Grid, b: Grid)
    ensures NonFull(a + b) == NonFull(a) + NonFull(b)
    decreases |a|
  {
    if |a| == 0 {
      assert a + b == b;
    } else {
      assert (a + b)[1..] == a[1..] + b;
      NonFullAppend(a[1..], b);
    }
  }

  lemma NonFullOfFullRow(row: Row)
    requires Full(row)
    ensures NonFull([row]) == []
  {
    assert [row][1..] == [];
  }

  lemma DropFullRow(a: Grid, row: Row, b: Grid)
    requires Full(row)
    ensures NonFull(a + [row] + b) == NonFull(a + b)
  {
    NonFullAppend(a + [row], b);
    NonFullAppend(a, [row]);
    NonFullOfFullRow(row);
    NonFullAppend(a, b);
  }

  /** Dropping one full row leaves the non-full rows as they were. */
  lemma RemoveFullRow(s: Grid, i: nat)
    requires i < |s| && Full(s[i])
    ensures NonFull(s[..i] + s[i + 1..]) == NonFull(s)
    ensures multiset(s[..i] + s[i + 1..]) <= multiset(s)
  {
    RemoveFullRowNonFull(s, i);
    RemoveOneMultiset(s, i);
  }

  lemma RemoveFullRowNonFull(s: Grid, i: nat)
    requires i < |s| && Full(s[i])
    ensures NonFull(s[..i] + s[i + 1..]) == NonFull(s)
  {
    SplitAt(s, i);
    DropFullRow(s[..i], s[i], s[i + 1..]);
  }

  lemma SplitAt<A>(s: seq<A>, i: nat)
    requires i < |s|
    ensures s == s[..i] + [s[i]] + s[i + 1..]
  {
  }

  lemma RemoveOneMultiset<A>(s: seq<A>, i: nat)
    requires i < |s|
    ensures multiset(s[..i] + s[i + 1..]) <= multiset(s)
  {
    SplitAt(s, i);
  }

  /** `g'` is `g` with `k` rows taken out, each of them full, and `k` empty
      rows put on top: the non-full rows of `g` are all still there, in their
      order, below the `k` new rows, and nothing else was added. */
  ghost predicate ClearedBy(g: Grid, g': Grid, k: nat)
  {
    && |g'| == |g|
    && k <= |g|
    && g'[..k] == Empties(k)
    && NonFull(g'[k..]) == NonFull(g)
    && multiset(g'[k..]) <= multiset(g)
  }

  lemma ClearedByWellFormed(g: Grid, g': Grid, k: nat)
    requires WellFormed(g) && ClearedBy(g, g', k)
    ensures WellFormed(g')
  {
    forall y | 0 <= y < |g'|
      ensures |g'[y]| == Width
    {
      if y < k {
        assert g'[y] == g'[..k][y];
      } else {
        assert g'[y] == g'[k..][y - k];
        assert g'[y] in multiset(g'[k..]);
        assert g'[y] in multiset(g);
      }
    }
  }

  datatype LineClear = LineClear(grid: Grid, lines: nat)

  /** The loop of `checkLines` from index `y` downwards, with `lines` rows
      cleared so far. */
  function ClearFrom(g: Grid, y: int, lines: nat): (res: LineClear)
    requires -1 <= y < |g|
    ensures |res.grid| == |g| && res.lines >= lines
    decreases y + 1
  {
    if y < 0 then LineClear(g, lines)
    else if Full(g[y]) then ClearFrom([EmptyRow()] + g[..y] + g[y + 1..], y - 1, lines + 1)
    else ClearFrom(g, y - 1, lines)
  }

  /** Splicing out row `y` below the `k` empty rows on top and putting an
      empty row first gives `k + 1` empty rows over the rest. */
  lemma SpliceShape(g: Grid, y: nat, k: nat)
    requires k <= y < |g| && g[..k] == Empties(k)
    ensures [EmptyRow()] + g[..y] + g[y + 1..]
            == Empties(k + 1) + (g[k..][..y - k] + g[k..][y - k + 1..])
  {
    var mid := g[k..];
    var i := y - k;
    assert g[..y] == g[..k] + mid[..i];
    assert g[y + 1..] == mid[i + 1..];
    assert [EmptyRow()] + Empties(k) == Empties(k + 1);
  }

  /** One splice-and-unshift of the loop keeps `ClearedBy`, with one more
      row counted. */
  lemma ClearStep(g0: Grid, g: Grid, y: nat, k: nat)
    requires ClearedBy(g0, g, k) && y < |g| && Full(g[y])
    ensures k <= y
    ensures ClearedBy(g0, [EmptyRow()] + g[..y] + g[y + 1..], k + 1)
  {
    EmptyRowNotFull();
    var mid := g[k..];
    var i := y - k;
    assert mid[i] == g[y];
    RemoveFullRow(mid, i);
    var mid' := mid[..i] + mid[i + 1..];
    SpliceShape(g, y, k);
    var g1 := Empties(k + 1) + mid';
    assert g1[..k + 1] == Empties(k + 1);
    assert g1[k + 1..] == mid';
  }

  /** Each step of the loop keeps `ClearedBy` relative to the grid the pass
      started from. */
  lemma {:induction false} ClearFromKeeps(g0: Grid, g: Grid, y: int, k: nat)
    requires ClearedBy(g0, g, k) && -1 <= y < |g|
    ensures ClearedBy(g0, ClearFrom(g, y, k).grid, ClearFrom(g, y, k).lines)
    decreases y + 1
  {
    if y >= 0 {
      if Full(g[y]) {
        ClearStep(g0, g, y, k);
        ClearFromKeeps(g0, [EmptyRow()] + g[..y] + g[y + 1..], y - 1, k + 1);
      } else {
        ClearFromKeeps(g0, g, y - 1, k);
      }
    }
  }

  /** Result of `checkLines`: the new grid, the rows it removed, the new score. */
  datatype Scored = Scored(grid: Grid, lines: nat, score: int)

  /** `checkLines`: one bottom-to-top pass, 100 points per removed row. */
  function CheckLines(g: Grid, score: int): (r: Scored)
    requires WellFormed(g)
    ensures WellFormed(r.grid)
    ensures ClearedBy(g, r.grid, r.lines)
    ensures r.score == score + PointsPerLine * r.lines
    ensures r.lines > 0 <==> exists y :: 0 <= y < |g| && Full(g[y])
    ensures forall y :: 0 <= y < |g| && (forall j :: y <= j < |g| ==> !Full(g[j])) ==> r.grid[y] == g[y]
  {
    assert g[..0] == Empties(0);
    assert g[0..] == g;
    ClearFromKeeps(g, g, |g| - 1, 0);
    ClearFromCounts(g, |g| - 1, 0);
    ClearFromKeepsBelow(g, |g| - 1, 0);
    var c := ClearFrom(g, |g| - 1, 0);
    ClearedByWellFormed(g, c.grid, c.lines);
    Scored(c.grid, c.lines, if c.lines > 0 then score + c.lines * PointsPerLine else score)
  }

  /** The pass from `y` clears at least one row exactly when some row at or
      above `y` is full: the first full row it meets is always removed. */
  lemma {:induction false} ClearFromCounts(g: Grid, y: int, k: nat)
    requires -1 <= y < |g|
    ensures ClearFrom(g, y, k).lines > k <==> exists i :: 0 <= i <= y && Full(g[i])
    decreases y + 1
  {
    if exists i :: 0 <= i <= y && Full(g[i]) {
      if !Full(g[y]) {
        ClearFromCounts(g, y - 1, k);
      }
    } else {
      ClearFromNoFullRows(g, y, k);
    }
  }

  /** The pass from `y` leaves alone every row with no full row between it
      and `y`: rows below the lowest full row stay where they are. */
  lemma {:induction false} ClearFromKeepsBelow(g: Grid, y: int, k: nat)
    requires -1 <= y < |g|
    ensures forall i :: 0 <= i < |g| && (forall j :: i <= j <= y ==> !Full(g[j])) ==> ClearFrom(g, y, k).grid[i] == g[i]
    decreases y + 1
  {
    if y >= 0 {
      if Full(g[y]) {
        var g1 := [EmptyRow()] + g[..y] + g[y + 1..];
        ClearFromKeepsBelow(g1, y - 1, k + 1);
        forall i | 0 <= i < |g| && (forall j :: i <= j <= y ==> !Full(g[j]))
          ensures ClearFrom(g, y, k).grid[i] == g[i]
        {
          assert i > y;
          assert g1[i] == g[i];
        }
      } else {
        ClearFromKeepsBelow(g, y - 1, k);
      }
    }
  }

  /** With no full row at or above index `y` the rest of the pass changes nothing. */
  lemma {:induction false} ClearFromNoFullRows(g: Grid, y: int, k: nat)
    requires -1 <= y < |g|
    requires forall i :: 0 <= i <= y ==> !Full(g[i])
    ensures ClearFrom(g, y, k) == LineClear(g, k)
    decreases y + 1
  {
    if y >= 0 {
      ClearFromNoFullRows(g, y - 1, k);
    }
  }

  /** A grid without full rows comes out of `checkLines` unchanged and scores nothing. */
  lemma CheckLinesNoFullRows(g: Grid, score: int)
    requires WellFormed(g)
    requires forall y :: 0 <= y < |g| ==> !Full(g[y])
    ensures CheckLines(g, score) == Scored(g, 0, score)
  {
    ClearFromNoFullRows(g, |g| - 1, 0);
  }

  function FullRow(): (row: Row)
    ensures |row| == Width && Full(row)
  {
    seq(Width, i => Filled(I))
  }

  /** The pass does not clear every full row: with the two bottom rows full,
      only the lowest is removed and the other one moves down into its place. */
  lemma ClearLinesSkipsRowAboveCleared()
    ensures var g := Empties(Height - 2) + [FullRow(), FullRow()];
            && WellFormed(g)
            && CheckLines(g, 0).lines == 1
            && CheckLines(g, 0).score == 100
            && Full(CheckLines(g, 0).grid[Height - 1])
  {
    var g := Empties(Height - 2) + [FullRow(), FullRow()];
    assert Full(g[Height - 1]);
    var g1 := [EmptyRow()] + g[..Height - 1] + g[Height..];
    assert g1 == Empties(Height - 1) + [FullRow()];
    EmptyRowNotFull();
    ClearFromNoFullRows(g1, Height - 2, 1);
    assert ClearFrom(g, Height - 1, 0) == LineClear(g1, 1);
  }
}

=== FILE: duel.dfy ===
/**
 The two-player fighting game: two fighters under gravity on a floor
 between two walls, each with a short attack and a jumping special, each
 on its own cooldown; a hit takes 5 of 100 health and the game ends when a
 fighter's health reaches 0. Held keys are an input set per fighter; the
 timers that end an attack (`setTimeout`) are the event `Disarm`.
 */
module Duel {
  import opened Geometry

  const FighterWidth: real := 50.0
  const FighterHeight: real := 80.0
  const Gravity: real := 0.8
  const WalkSpeed: real := 5.0
  const JumpSpeed: real := -15.0
  const SpecialSpeed: real := 15.0
  const MaxHealth: int := 100
  const Damage: int := 5
  const AttackCooldown: int := 30
  const SpecialCooldown: int := 120
  const AttackBoxWidth: real := 60.0
  const AttackBoxHeight: real := 30.0

  datatype Facing = FaceLeft | FaceRight

  datatype Fighter = Fighter(
    x: real, y: real, vx: real, vy: real,
    facing: Facing,
    health: int,
    attacking: bool,
    attackCooldown: int,
    specialCooldown: int,
    grounded: bool)

  function NewFighter(x: real, y: real, facing: Facing): (f: Fighter)
    ensures f.health == MaxHealth && !f.attacking && f.attackCooldown == 0 && f.specialCooldown == 0
    ensures f.x == x && f.y == y && f.facing == facing && !f.grounded
  {
    Fighter(x, y, 0.0, 0.0, facing, MaxHealth, false, 0, 0, false)
  }

  /** The lowest `y` a fighter can have: feet 10 pixels above the bottom. */
  function Floor(height: real): real
  {
    height - FighterHeight - 10.0
  }

  /** `Fighter.update`: gravity and velocity; land on the floor; stop at the
      walls; both cooldowns count down to 0. */
  function FighterUpdate(f: Fighter, width: real, height: real): (f': Fighter)
    ensures f'.y <= Floor(height)
    ensures width >= FighterWidth ==> 0.0 <= f'.x <= width - FighterWidth
    ensures f'.grounded <==> f.y + f.vy + Gravity > Floor(height)
    ensures f'.grounded ==> f'.y == Floor(height) && f'.vy == 0.0
    ensures !f'.grounded ==> f'.y == f.y + f.vy + Gravity && f'.vy == f.vy + Gravity
    ensures 0.0 <= f.x + f.vx <= width - FighterWidth ==> f'.x == f.x + f.vx
    ensures f'.attackCooldown == (if f.attackCooldown > 0 then f.attackCooldown - 1 else f.attackCooldown)
    ensures f'.specialCooldown == (if f.specialCooldown > 0 then f.specialCooldown - 1 else f.specialCooldown)
    ensures f'.health == f.health && f'.attacking == f.attacking && f'.facing == f.facing && f'.vx == f.vx
  {
    var vy := f.vy + Gravity;
    var x := f.x + f.vx;
    var y := f.y + vy;
    var f1 := if y + FighterHeight > height - 10.0 then f.(x := x, y := Floor(height), vy := 0.0, grounded := true)
              else f.(x := x, y := y, vy := vy, grounded := false);
    var f2 := if f1.x < 0.0 then f1.(x := 0.0) else f1;
    var f3 := if f2.x + FighterWidth > width then f2.(x := width - FighterWidth) else f2;
    f3.(attackCooldown := if f3.attackCooldown > 0 then f3.attackCooldown - 1 else f3.attackCooldown,
        specialCooldown := if f3.specialCooldown > 0 then f3.specialCooldown - 1 else f3.specialCooldown)
  }

  /** `attack`: only when the cooldown is over. */
  function Attack(f: Fighter): (f': Fighter)
    ensures f.attackCooldown == 0 ==> f' == f.(attacking := true, attackCooldown := AttackCooldown)
    ensures f.attackCooldown != 0 ==> f' == f
  {
    if f.attackCooldown == 0 then f.(attacking := true, attackCooldown := AttackCooldown) else f
  }

  /** `special`: only when its cooldown is over; a leap up and forward that
      also attacks. */
  function Special(f: Fighter): (f': Fighter)
    ensures f.specialCooldown == 0 ==>
              && f'.vy == JumpSpeed && f'.vx == (if f.facing == FaceRight then SpecialSpeed else -SpecialSpeed)
              && f'.attacking && f'.specialCooldown == SpecialCooldown
              && f'.x == f.x && f'.y == f.y && f'.attackCooldown == f.attackCooldown && f'.health == f.health
    ensures f.specialCooldown != 0 ==> f' == f
  {
    if f.specialCooldown == 0 then
      f.(vy := JumpSpeed, vx := if f.facing == FaceRight then SpecialSpeed else -SpecialSpeed,
         attacking := true, specialCooldown := SpecialCooldown)
    else f
  }

  /** A fighter's five controls; a set of them is what that fighter holds down. */
  datatype Control = GoLeft | GoRight | JumpKey | AttackKey | SpecialKey

  /** `handleInput`: left wins over right, no direction stops; a jump only
      from the ground; then the attack and the special. */
  function HandleInput(f: Fighter, keys: set<Control>): (f': Fighter)
    ensures GoLeft in keys ==> f'.facing == FaceLeft
    ensures GoLeft !in keys && GoRight in keys ==> f'.facing == FaceRight
    ensures GoLeft !in keys && GoRight !in keys ==> f'.facing == f.facing
    ensures !(SpecialKey in keys && f.specialCooldown == 0) ==>
              && f'.vx == (if GoLeft in keys then -WalkSpeed else if GoRight in keys then WalkSpeed else 0.0)
              && f'.vy == (if JumpKey in keys && f.grounded then JumpSpeed else f.vy)
    ensures f'.attacking <==> f.attacking || (AttackKey in keys && f.attackCooldown == 0)
                              || (SpecialKey in keys && f.specialCooldown == 0)
    ensures f'.attackCooldown == (if AttackKey in keys && f.attackCooldown == 0 then AttackCooldown else f.attackCooldown)
    ensures f'.specialCooldown == (if SpecialKey in keys && f.specialCooldown == 0 then SpecialCooldown else f.specialCooldown)
    ensures f'.x == f.x && f'.y == f.y && f'.health == f.health && f'.grounded == f.grounded
  {
    var f1 := if GoLeft in keys then f.(vx := -WalkSpeed, facing := FaceLeft)
              else if GoRight in keys then f.(vx := WalkSpeed, facing := FaceRight)
              else f.(vx := 0.0);
    var f2 := if JumpKey in keys && f1.grounded then f1.(vy := JumpSpeed) else f1;
    var f3 := if AttackKey in keys then Attack(f2) else f2;
    if SpecialKey in keys then Special(f3) else f3
  }

  /** The attack box: 60×30 at mid-height, on the side the fighter faces. */
  function AttackBox(f: Fighter): (r: Rect)
    ensures r.w == AttackBoxWidth && r.h == AttackBoxHeight && r.y == f.y + FighterHeight / 2.0
    ensures f.facing == FaceRight ==> r.x == f.x + FighterWidth
    ensures f.facing == FaceLeft ==> r.x + r.w == f.x
  {
    Rect(if f.facing == FaceRight then f.x + FighterWidth else f.x - AttackBoxWidth,
         f.y + FighterHeight / 2.0, AttackBoxWidth, AttackBoxHeight)
  }

  function Body(f: Fighter): Rect
  {
    Rect(f.x, f.y, FighterWidth, FighterHeight)
  }

  datatype Side = Player1 | Player2

  /** `gameOver` and the winner `endGame` last announced. */
  datatype Outcome = Fighting | Winner(side: Side)

  /** `checkCollision(attacker, defender)`: an attacking fighter whose
      attack box overlaps the defender takes 5 health; at 0 or below the
      attacker is announced the winner. */
  function CheckCollision(attacker: Fighter, defender: Fighter, side: Side, outcome: Outcome): (r: (Fighter, Outcome))
    ensures !attacker.attacking ==> r == (defender, outcome)
    ensures attacker.attacking && !Overlaps(AttackBox(attacker), Body(defender)) ==> r == (defender, outcome)
    ensures attacker.attacking && Overlaps(AttackBox(attacker), Body(defender)) ==>
              && r.0 == defender.(health := defender.health - Damage)
              && r.1 == (if r.0.health <= 0 then Winner(side) else outcome)
  {
    if !attacker.attacking then (defender, outcome)
    else if Overlaps(AttackBox(attacker), Body(defender)) then
      var d := defender.(health := defender.health - Damage);
      (d, if d.health <= 0 then Winner(side) else outcome)
    else (defender, outcome)
  }

  datatype Game = Game(width: real, height: real, p1: Fighter, p2: Fighter, outcome: Outcome)

  /** The constructor (and `restartGame`, which builds a new game). */
  function NewGame(width: real, height: real): (g: Game)
    ensures g.p1 == NewFighter(100.0, 200.0, FaceRight) && g.p2 == NewFighter(650.0, 200.0, FaceLeft)
    ensures g.outcome == Fighting
  {
    Game(width, height, NewFighter(100.0, 200.0, FaceRight), NewFighter(650.0, 200.0, FaceLeft), Fighting)
  }

  /** `Game.update`: nothing once someone has won; otherwise input, physics,
      then player 1's attack on player 2 and player 2's on player 1 (so when
      both fall in the same frame, player 2 is announced last). */
  function Update(g: Game, keys1: set<Control>, keys2: set<Control>): (g': Game)
    ensures g.outcome != Fighting ==> g' == g
    ensures g.outcome == Fighting ==>
              && g.p1.health - Damage <= g'.p1.health <= g.p1.health
              && g.p2.health - Damage <= g'.p2.health <= g.p2.health
    ensures g.outcome == Fighting && g'.outcome == Winner(Player1) ==> g'.p2.health <= 0
    ensures g.outcome == Fighting && g'.outcome == Winner(Player2) ==> g'.p1.health <= 0
    ensures g.outcome == Fighting && g.p1.health > 0 && g'.p1.health <= 0 ==> g'.outcome == Winner(Player2)
    ensures g.outcome == Fighting && g.p2.health > 0 && g'.p2.health <= 0 && g'.p1.health == g.p1.health ==>
              g'.outcome == Winner(Player1)
    ensures g.outcome == Fighting && g'.p1.health > 0 && g'.p2.health > 0 ==> g'.outcome == Fighting
  {
    if g.outcome != Fighting then g
    else
      var a := FighterUpdate(HandleInput(g.p1, keys1), g.width, g.height);
      var b := FighterUpdate(HandleInput(g.p2, keys2), g.width, g.height);
      var (b', o1) := CheckCollision(a, b, Player1, g.outcome);
      var (a', o2) := CheckCollision(b', a, Player2, o1);
      Game(g.width, g.height, a', b', o2)
  }

  /** Health is a whole number of hits below 100, never below 0, and both
      fighters are still standing while nobody has won; cooldowns stay
      within 0..30 and 0..120. */
  predicate Inv(g: Game)
  {
    && FighterInv(g.p1) && FighterInv(g.p2)
    && (g.outcome == Fighting ==> g.p1.health > 0 && g.p2.health > 0)
  }

  predicate FighterInv(f: Fighter)
  {
    && 0 <= f.health <= MaxHealth && f.health % Damage == 0
    && 0 <= f.attackCooldown <= AttackCooldown
    && 0 <= f.specialCooldown <= SpecialCooldown
  }

  lemma UpdateKeepsInv(g: Game, keys1: set<Control>, keys2: set<Control>)
    requires Inv(g)
    ensures Inv(Update(g, keys1, keys2))
  {
  }

  /** What can happen between two frames: a frame with the keys held, or
      an attack's timer running out. */
  datatype Event = Frame(keys1: set<Control>, keys2: set<Control>) | Disarm(who: Side) | Restart

  function Step(g: Game, e: Event): Game
  {
    match e
    case Frame(k1, k2) => Update(g, k1, k2)
    case Disarm(Player1) => g.(p1 := g.p1.(attacking := false))
    case Disarm(Player2) => g.(p2 := g.p2.(attacking := false))
    case Restart => NewGame(g.width, g.height)
  }

  function Run(g: Game, evs: seq<Event>): Game
    decreases |evs|
  {
    if |evs| == 0 then g else Run(Step(g, evs[0]), evs[1..])
  }

  /** Over any run: health stays in {0, 5, …, 100}, a fighter at 0 means
      the game is decided, and the cooldowns never go negative. */
  lemma {:induction false} RunKeepsInv(g: Game, evs: seq<Event>)
    requires Inv(g)
    ensures Inv(Run(g, evs))
    decreases |evs|
  {
    if |evs| > 0 {
      if evs[0].Frame? {
        UpdateKeepsInv(g, evs[0].keys1, evs[0].keys2);
      }
      RunKeepsInv(Step(g, evs[0]), evs[1..]);
    }
  }

  /** Once decided, the winner never changes: later frames do nothing and
      only a restart clears the result. */
  lemma {:induction false} DecidedStaysDecided(g: Game, evs: seq<Event>)
    requires g.outcome != Fighting
    requires forall i :: 0 <= i < |evs| ==> !evs[i].Restart?
    ensures Run(g, evs).outcome == g.outcome
    decreases |evs|
  {
    if |evs| > 0 {
      DecidedStaysDecided(Step(g, evs[0]), evs[1..]);
    }
  }
}

=== FILE: geometry.dfy ===
/**
 Shared arithmetic of the arcade games: axis-aligned rectangles, the strict
 bounding-box overlap test every game repeats, and the clamp that keeps an
 entity inside its arena.
 */
module Geometry {

  /** A rectangle with top-left corner (x, y), growing right and down. */
  datatype Rect = Rect(x: real, y: real, w: real, h: real)

  /** The overlap test of every game: strict on all four sides, so rectangles
      that only touch along an edge do not collide. */
  predicate Overlaps(a: Rect, b: Rect)
  {
    && a.x < b.x + b.w
    && a.x + a.w > b.x
    && a.y < b.y + b.h
    && a.y + a.h > b.y
  }

  /** Overlap does not depend on which rectangle is asked about first. */
  lemma OverlapsSymmetric(a: Rect, b: Rect)
    ensures Overlaps(a, b) <==> Overlaps(b, a)
  {
  }

  /** `Math.max(lo, Math.min(v, hi))`. */
  function Clamp(v: real, lo: real, hi: real): (r: real)
    ensures lo <= r
    ensures lo <= hi ==> r <= hi
    ensures lo <= v <= hi ==> r == v
    ensures v < lo ==> r == lo
    ensures lo <= hi < v ==> r == hi
  {
    if v < hi then (if v < lo then lo else v) else (if hi < lo then lo else hi)
  }

  function MinReal(a: real, b: real): (r: real)
    ensures r <= a && r <= b
    ensures r == a || r == b
  {
    if a <= b then a else b
  }

  function MaxReal(a: real, b: real): (r: real)
    ensures r >= a && r >= b
    ensures r == a || r == b
  {
    if a >= b then a else b
  }

  function AbsReal(a: real): (r: real)
    ensures r >= 0.0
    ensures r == a || r == -a
  {
    if a < 0.0 then -a else a
  }

  /** `Math.random() * room`: a draw in [0, 1) lands within the room. */
  function Scale(d: real, room: real): (r: real)
    ensures 0.0 <= d < 1.0 && 0.0 <= room ==> 0.0 <= r <= room
  {
    ScaledInside(d, room);
    d * room
  }

  /** A draw in [0, 1) scales a room of `len` into [0, len]. */
  lemma ScaledInside(d: real, len: real)
    ensures 0.0 <= d < 1.0 && 0.0 <= len ==> 0.0 <= d * len <= len
  {
    if 0.0 <= d < 1.0 && 0.0 <= len {
      assert d * len <= 1.0 * len;
    }
  }
}

=== FILE: moto.dfy ===
/**
 The motorcycle dodger: a bike near the bottom of the screen steps left and
 right while blocks fall at random speeds; each hit costs 20 of 100 health,
 and the fifth hit ends the ride. The random position and speed of each
 block, and the 1.5 s spawn timer, become the event `Spawn`.
 */
module Moto {
  import opened Geometry

  const BikeWidth: real := 50.0
  const BikeHeight: real := 80.0
  const Step: real := 15.0
  const MaxHealth: int := 100
  const HitDamage: int := 20
  const MaxCollisions: int := 5
  const BlockSize: real := 50.0
  const MinSpeed: real := 4.0

  datatype Bike = Bike(x: real, health: int, collisions: int)

  /** The bike's top edge, fixed 100 pixels above the bottom. */
  function BikeY(height: real): real
  {
    height - 100.0
  }

  function NewBike(width: real): (b: Bike)
    ensures b.health == MaxHealth && b.collisions == 0 && b.x == width / 2.0 - 25.0
  {
    Bike(width / 2.0 - 25.0, MaxHealth, 0)
  }

  datatype Dir = Left | Right

  /** `move(direction)`: a step of exactly 15 when the bike is not already
      at (or past) that side, else nothing. */
  function Move(b: Bike, d: Dir, width: real): (b': Bike)
    ensures b'.x == b.x || b'.x == b.x - Step || b'.x == b.x + Step
    ensures b'.x == b.x - Step <==> d == Left && b.x > 0.0
    ensures b'.x == b.x + Step <==> d == Right && b.x < width - BikeWidth
    ensures b'.health == b.health && b'.collisions == b.collisions
  {
    if d == Left && b.x > 0.0 then b.(x := b.x - Step)
    else if d == Right && b.x < width - BikeWidth then b.(x := b.x + Step)
    else b
  }

  /** `hit`: one more collision, 20 less health. */
  function Hit(b: Bike): (b': Bike)
    ensures b'.collisions == b.collisions + 1 && b'.health == b.health - HitDamage && b'.x == b.x
  {
    b.(collisions := b.collisions + 1, health := b.health - HitDamage)
  }

  /** Health is what the hits so far have left of 100. */
  predicate HealthMatches(b: Bike)
  {
    b.health == MaxHealth - HitDamage * b.collisions
  }

  lemma HitKeepsHealthMatch(b: Bike)
    requires HealthMatches(b)
    ensures HealthMatches(Hit(b))
  {
  }

  datatype Block = Block(x: real, y: real, speed: real)

  /** A new block just above the screen; `drawX` and `drawSpeed` are the two
      random values in [0, 1). */
  function NewBlock(width: real, drawX: real, drawSpeed: real): (o: Block)
    requires 0.0 <= drawSpeed < 1.0
    ensures o.y == -BlockSize && MinSpeed <= o.speed < MinSpeed + 2.0
    ensures 0.0 <= drawX < 1.0 && BlockSize <= width ==> 0.0 <= o.x <= width - BlockSize
  {
    Block(Scale(drawX, width - BlockSize), -BlockSize, MinSpeed + drawSpeed * 2.0)
  }

  /** `Obstacle.update`: down by its speed. */
  function Fall(o: Block): (o': Block)
    ensures o'.y == o.y + o.speed && o'.x == o.x && o'.speed == o.speed
  {
    o.(y := o.y + o.speed)
  }

  /** The frame's obstacle loop as written: a `for…of` over the list that
      splices out each block that has fallen past the bottom. The splice
      shifts the rest of the list left under the iterator, so the block
      right after a removed one is neither moved nor checked this frame. */
  function Advance(obs: seq<Block>, i: nat, height: real): (r: seq<Block>)
    ensures |r| <= |obs|
    ensures (forall j :: 0 <= j < |obs| ==> obs[j].speed >= MinSpeed) ==> forall j :: 0 <= j < |r| ==> r[j].speed >= MinSpeed
    decreases if i <= |obs| then |obs| - i else 0
  {
    if i >= |obs| then obs
    else
      var o := Fall(obs[i]);
      if o.y > height then Advance(obs[..i] + obs[i + 1..], i + 1, height)
      else Advance(obs[..i] + [o] + obs[i + 1..], i + 1, height)
  }

  /** What the loop is meant to do: move every block and drop those that
      have left the screen. */
  function FallAll(obs: seq<Block>, height: real): (r: seq<Block>)
    ensures |r| <= |obs|
    ensures forall j :: 0 <= j < |r| ==> r[j].y <= height
    decreases |obs|
  {
    if |obs| == 0 then []
    else
      var o := Fall(obs[0]);
      (if o.y > height then [] else [o]) + FallAll(obs[1..], height)
  }

  /** While no block leaves the screen, the loop does just that. */
  lemma {:induction false} AdvanceIsFallAllWhenNoneLeave(obs: seq<Block>, i: nat, height: real)
    requires i <= |obs|
    requires forall j :: i <= j < |obs| ==> Fall(obs[j]).y <= height
    ensures Advance(obs, i, height) == obs[..i] + FallAll(obs[i..], height)
    decreases |obs| - i
  {
    if i == |obs| {
      assert obs[..i] == obs;
    } else {
      var o := Fall(obs[i]);
      var next := obs[..i] + [o] + obs[i + 1..];
      assert |next| == |obs|;
      forall j | i + 1 <= j < |next| ensures Fall(next[j]).y <= height {
        assert next[j] == obs[j];
      }
      AdvanceIsFallAllWhenNoneLeave(next, i + 1, height);
      assert next[..i + 1] == obs[..i] + [o];
      assert next[i + 1..] == obs[i + 1..];
      assert obs[i..][1..] == obs[i + 1..];
    }
  }

  /** The skip, on two blocks that both leave the screen in the same frame:
      the first is removed, the second stays where it was. */
  lemma AdvanceSkipsBlockAfterRemoved()
    ensures Advance([Block(0.0, 600.0, 5.0), Block(0.0, 600.0, 5.0)], 0, 600.0) == [Block(0.0, 600.0, 5.0)]
    ensures FallAll([Block(0.0, 600.0, 5.0), Block(0.0, 600.0, 5.0)], 600.0) == []
  {
    var obs := [Block(0.0, 600.0, 5.0), Block(0.0, 600.0, 5.0)];
    assert obs[..0] + obs[1..] == [Block(0.0, 600.0, 5.0)];
    assert FallAll(obs[1..], 600.0) == [];
  }

  /** The overlap test of `checkCollision`. */
  predicate Touches(o: Block, bikeX: real, height: real)
  {
    && o.y + BlockSize > BikeY(height)
    && o.y < BikeY(height) + BikeHeight
    && o.x + BlockSize > bikeX
    && o.x < bikeX + BikeWidth
  }

  datatype Checked = Checked(bike: Bike, blocks: seq<Block>, over: bool)

  /** `checkCollision`: every touching block is a hit and is moved 100
      pixels below the screen; the game ends once there are 5 collisions or
      no health left (the loop carries on over the remaining blocks). */
  function CheckCollision(b: Bike, obs: seq<Block>, over: bool, height: real): (r: Checked)
    ensures |r.blocks| == |obs|
    ensures r.bike.collisions >= b.collisions && r.bike.health <= b.health && r.bike.x == b.x
    ensures r.bike.collisions == b.collisions ==> r.bike == b
    ensures HealthMatches(b) ==> HealthMatches(r.bike)
    ensures r.over <==> over || (r.bike.collisions > b.collisions && (r.bike.collisions >= MaxCollisions || r.bike.health <= 0))
    ensures forall j :: 0 <= j < |obs| ==> r.blocks[j] == (if Touches(obs[j], b.x, height) then obs[j].(y := height + 100.0) else obs[j])
    ensures r.bike.collisions == b.collisions + CountTouching(obs, b.x, height)
    decreases |obs|
  {
    if |obs| == 0 then Checked(b, [], over)
    else
      var o := obs[0];
      var hitNow := Touches(o, b.x, height);
      var b1 := if hitNow then Hit(b) else b;
      var o1 := if hitNow then o.(y := height + 100.0) else o;
      var over1 := over || (hitNow && (b1.collisions >= MaxCollisions || b1.health <= 0));
      var rest := CheckCollision(b1, obs[1..], over1, height);
      Checked(rest.bike, [o1] + rest.blocks, rest.over)
  }

  function CountTouching(obs: seq<Block>, bikeX: real, height: real): nat
    decreases |obs|
  {
    if |obs| == 0 then 0 else (if Touches(obs[0], bikeX, height) then 1 else 0) + CountTouching(obs[1..], bikeX, height)
  }

  /** A block that has been hit sits below the bike and only moves further
      down, so it can never be hit again. */
  lemma {:induction false} HitBlockNeverHitsAgain(o: Block, b: Bike, height: real, frames: nat)
    requires o.y >= height + 100.0 && o.speed >= MinSpeed
    ensures !Touches(FallFor(o, frames), b.x, height)
    ensures FallFor(o, frames).y >= height + 100.0
    decreases frames
  {
    if frames > 0 {
      HitBlockNeverHitsAgain(o, b, height, frames - 1);
    }
  }

  /** `frames` updates of one block. */
  function FallFor(o: Block, frames: nat): (o': Block)
    ensures o'.speed == o.speed && o'.x == o.x
    decreases frames
  {
    if frames == 0 then o else Fall(FallFor(o, frames - 1))
  }

  datatype Game = Game(width: real, height: real, bike: Bike, blocks: seq<Block>, over: bool)

  /** `Game.update`: nothing once over; otherwise the block loop, then the
      collision check. */
  function Update(g: Game): (g': Game)
    ensures g.over ==> g' == g
    ensures g'.bike.collisions >= g.bike.collisions && g'.bike.x == g.bike.x
    ensures HealthMatches(g.bike) ==> HealthMatches(g'.bike)
    ensures !g.over ==> (g'.over <==> g'.bike.collisions > g.bike.collisions
                                      && (g'.bike.collisions >= MaxCollisions || g'.bike.health <= 0))
  {
    if g.over then g
    else
      var c := CheckCollision(g.bike, Advance(g.blocks, 0, g.height), false, g.height);
      g.(bike := c.bike, blocks := c.blocks, over := c.over)
  }

  /** The spawn timer: a new block is added unless the game is over. */
  function Spawn(g: Game, drawX: real, drawSpeed: real): (g': Game)
    requires 0.0 <= drawSpeed < 1.0
    ensures g.over ==> g' == g
    ensures !g.over ==> g'.blocks == g.blocks + [NewBlock(g.width, drawX, drawSpeed)] && g'.bike == g.bike
  {
    if g.over then g else g.(blocks := g.blocks + [NewBlock(g.width, drawX, drawSpeed)])
  }

  /** The constructor spawns the first block straight away. */
  function NewGame(width: real, height: real, drawX: real, drawSpeed: real): (g: Game)
    requires 0.0 <= drawSpeed < 1.0
    ensures Inv(g) && g.bike == NewBike(width) && |g.blocks| == 1 && !g.over
    ensures g.blocks[0] == NewBlock(width, drawX, drawSpeed) && g.width == width && g.height == height
  {
    Game(width, height, NewBike(width), [NewBlock(width, drawX, drawSpeed)], false)
  }

  /** Health always equals 100 − 20 · collisions; a running game has fewer
      than 5; every block falls at least 4 pixels a frame. */
  predicate Inv(g: Game)
  {
    && HealthMatches(g.bike)
    && g.bike.collisions >= 0
    && (!g.over ==> g.bike.collisions < MaxCollisions)
    && (forall j :: 0 <= j < |g.blocks| ==> g.blocks[j].speed >= MinSpeed)
  }

  lemma UpdateKeepsInv(g: Game)
    requires Inv(g)
    ensures Inv(Update(g))
  {
  }

  datatype Event = Frame | Press(d: Dir) | SpawnTimer(drawX: real, drawSpeed: real)

  function Run(g: Game, evs: seq<Event>): Game
    requires forall i :: 0 <= i < |evs| ==> evs[i].SpawnTimer? ==> 0.0 <= evs[i].drawSpeed < 1.0
    decreases |evs|
  {
    if |evs| == 0 then g
    else
      var g' := match evs[0]
        case Frame => Update(g)
        case Press(d) => g.(bike := Move(g.bike, d, g.width))
        case SpawnTimer(dx, ds) => Spawn(g, dx, ds);
      Run(g', evs[1..])
  }

  /** Over any run, health and collisions stay tied together and the ride
      goes on only while there have been fewer than 5 hits. */
  lemma {:induction false} RunKeepsInv(g: Game, evs: seq<Event>)
    requires Inv(g)
    requires forall i :: 0 <= i < |evs| ==> evs[i].SpawnTimer? ==> 0.0 <= evs[i].drawSpeed < 1.0
    ensures Inv(Run(g, evs))
    ensures Run(g, evs).bike.health == MaxHealth - HitDamage * Run(g, evs).bike.collisions
    decreases |evs|
  {
    if |evs| > 0 {
      if evs[0].Frame? {
        UpdateKeepsInv(g);
      }
      var g' := match evs[0]
        case Frame => Update(g)
        case Press(d) => g.(bike := Move(g.bike, d, g.width))
        case SpawnTimer(dx, ds) => Spawn(g, dx, ds);
      assert forall i :: 0 <= i < |evs[1..]| ==> evs[1..][i] == evs[i + 1];
      RunKeepsInv(g', evs[1..]);
    }
  }
}

=== FILE: pong.dfy ===
/**
 Two-paddle pong on an 800 × 400 field, first to 5 points. Paddles move in
 whole steps of 5; the ball's speed grows by 10% every 5 seconds, so it is
 an exact real. The clock (`Date.now`) and the two random serve directions
 of `reset` are parameters.
 */
module Pong {

  const FieldWidth: real := 800.0
  const FieldHeight: int := 400
  const PaddleWidth: int := 10
  const PaddleHeight: int := 80
  const PaddleSpeed: int := 5
  const PaddleStart: int := 200
  const BallSpeed: real := 5.0
  const CentreX: real := 400.0
  const CentreY: real := 200.0
  /** Milliseconds between two speed-ups. */
  const SpeedUpInterval: int := 5000
  const SpeedUp: real := 1.1
  const WinningScore: int := 5

  datatype Paddle = Paddle(x: int, y: int, score: int)

  function NewPaddle(x: int): (p: Paddle)
    ensures p.x == x && p.y == PaddleStart && p.score == 0
  {
    Paddle(x, PaddleStart, 0)
  }

  /** `move(up)`: a step up while the top is below 0, a step down while the
      bottom is above 400; otherwise nothing. */
  function MovePaddle(p: Paddle, up: bool): (p': Paddle)
    ensures up && p.y > 0 ==> p'.y == p.y - PaddleSpeed
    ensures !up && p.y + PaddleHeight < FieldHeight ==> p'.y == p.y + PaddleSpeed
    ensures (up && p.y <= 0) || (!up && p.y + PaddleHeight >= FieldHeight) ==> p'.y == p.y
    ensures p'.x == p.x && p'.score == p.score
  {
    if up && p.y > 0 then p.(y := p.y - PaddleSpeed)
    else if !up && p.y + PaddleHeight < FieldHeight then p.(y := p.y + PaddleSpeed)
    else p
  }

  /** Where a paddle can be: on the step-5 grid inside the field. */
  predicate PaddleInField(p: Paddle)
  {
    0 <= p.y <= FieldHeight - PaddleHeight && p.y % PaddleSpeed == 0
  }

  /** Starting from y = 200, moves keep a paddle within [0, 320]. */
  lemma MoveStaysInField(p: Paddle, up: bool)
    requires PaddleInField(p)
    ensures PaddleInField(MovePaddle(p, up))
  {
  }

  datatype Ball = Ball(x: real, y: real, speedX: real, speedY: real, lastSpeedUp: int)

  /** `reset`: back to the centre at speed 5 each way, in the directions
      the two coin flips pick. */
  function Reset(b: Ball, rightward: bool, downward: bool): (b': Ball)
    ensures b'.x == CentreX && b'.y == CentreY
    ensures AbsSpeed(b'.speedX) == BallSpeed && AbsSpeed(b'.speedY) == BallSpeed
    ensures b'.speedX > 0.0 <==> rightward
    ensures b'.speedY > 0.0 <==> downward
    ensures b'.lastSpeedUp == b.lastSpeedUp
  {
    b.(x := CentreX, y := CentreY,
       speedX := BallSpeed * (if rightward then 1.0 else -1.0),
       speedY := BallSpeed * (if downward then 1.0 else -1.0))
  }

  function AbsSpeed(v: real): real
  {
    if v < 0.0 then -v else v
  }

  /** `increaseSpeed(now)`: 10% faster both ways once 5 s have passed since
      the last speed-up. */
  function IncreaseSpeed(b: Ball, now: int): (b': Ball)
    ensures now - b.lastSpeedUp >= SpeedUpInterval ==>
              b'.speedX == b.speedX * SpeedUp && b'.speedY == b.speedY * SpeedUp && b'.lastSpeedUp == now
    ensures now - b.lastSpeedUp < SpeedUpInterval ==> b' == b
    ensures b'.x == b.x && b'.y == b.y
  {
    if now - b.lastSpeedUp >= SpeedUpInterval then
      b.(speedX := b.speedX * SpeedUp, speedY := b.speedY * SpeedUp, lastSpeedUp := now)
    else b
  }

  /** The paddle test: the ball's centre is level with the paddle and past
      its front edge (for the left paddle) or beyond its x (for the right). */
  predicate HitsLeft(b: Ball, p: Paddle)
  {
    b.x < (p.x + PaddleWidth) as real && b.y > p.y as real && b.y < (p.y + PaddleHeight) as real
  }

  predicate HitsRight(b: Ball, p: Paddle)
  {
    b.x > p.x as real && b.y > p.y as real && b.y < (p.y + PaddleHeight) as real
  }

  datatype Rally = Rally(ball: Ball, p1: Paddle, p2: Paddle)

  /** The first half of `Ball.update`: one step, then a vertical bounce
      when the ball has left [0, 400] and a horizontal one off a paddle. */
  function MoveAndBounce(b: Ball, p1: Paddle, p2: Paddle): (b': Ball)
    ensures b'.x == b.x + b.speedX && b'.y == b.y + b.speedY && b'.lastSpeedUp == b.lastSpeedUp
    ensures b'.y < 0.0 || b'.y > FieldHeight as real ==> b'.speedY == -b.speedY
    ensures 0.0 <= b'.y <= FieldHeight as real ==> b'.speedY == b.speedY
    ensures HitsLeft(b', p1) || HitsRight(b', p2) ==> b'.speedX == -b.speedX
    ensures !HitsLeft(b', p1) && !HitsRight(b', p2) ==> b'.speedX == b.speedX
  {
    var moved := b.(x := b.x + b.speedX, y := b.y + b.speedY);
    var b1 := if moved.y < 0.0 || moved.y > FieldHeight as real then moved.(speedY := -moved.speedY) else moved;
    if HitsLeft(b1, p1) then b1.(speedX := -b1.speedX)
    else if HitsRight(b1, p2) then b1.(speedX := -b1.speedX)
    else b1
  }

  /** `Ball.update`: move; bounce off the top and bottom; bounce off a
      paddle; score and re-serve past either end; speed up on schedule. */
  function BallUpdate(b: Ball, p1: Paddle, p2: Paddle, now: int, rightward: bool, downward: bool): (r: Rally)
    ensures r.p1.y == p1.y && r.p2.y == p2.y && r.p1.x == p1.x && r.p2.x == p2.x
    ensures b.x + b.speedX < 0.0 ==> r.p2.score == p2.score + 1 && r.p1.score == p1.score
    ensures b.x + b.speedX > FieldWidth ==> r.p1.score == p1.score + 1 && r.p2.score == p2.score
    ensures 0.0 <= b.x + b.speedX <= FieldWidth ==> r.p1.score == p1.score && r.p2.score == p2.score
    ensures !(0.0 <= b.x + b.speedX <= FieldWidth) ==> r.ball.x == CentreX && r.ball.y == CentreY
    ensures 0.0 <= b.x + b.speedX <= FieldWidth ==> r.ball.x == b.x + b.speedX
  {
    var b2 := MoveAndBounce(b, p1, p2);
    var r := if b2.x < 0.0 then Rally(Reset(b2, rightward, downward), p1, p2.(score := p2.score + 1))
             else if b2.x > FieldWidth then Rally(Reset(b2, rightward, downward), p1.(score := p1.score + 1), p2)
             else Rally(b2, p1, p2);
    r.(ball := IncreaseSpeed(r.ball, now))
  }

  /** The ball always moves the same amount horizontally and vertically:
      bounces flip one sign, a speed-up scales both, a serve sets both to 5. */
  predicate Diagonal(b: Ball)
  {
    AbsSpeed(b.speedX) == AbsSpeed(b.speedY) && b.speedX != 0.0
  }

  lemma BallUpdateKeepsDiagonal(b: Ball, p1: Paddle, p2: Paddle, now: int, rightward: bool, downward: bool)
    requires Diagonal(b)
    ensures Diagonal(BallUpdate(b, p1, p2, now, rightward, downward).ball)
  {
  }

  datatype Game = Game(p1: Paddle, p2: Paddle, ball: Ball, over: bool, singlePlayer: bool)

  /** `updateAI`: the second paddle chases the ball, measured from the
      paddle's centre, and holds still when they are level. */
  function UpdateAI(g: Game): (g': Game)
    ensures g.ball.y < (g.p2.y + PaddleHeight / 2) as real ==> g'.p2 == MovePaddle(g.p2, true)
    ensures g.ball.y > (g.p2.y + PaddleHeight / 2) as real ==> g'.p2 == MovePaddle(g.p2, false)
    ensures g.ball.y == (g.p2.y + PaddleHeight / 2) as real ==> g' == g
    ensures g'.p1 == g.p1 && g'.ball == g.ball && g'.over == g.over
  {
    var centre := (g.p2.y + PaddleHeight / 2) as real;
    if g.ball.y < centre then g.(p2 := MovePaddle(g.p2, true))
    else if g.ball.y > centre then g.(p2 := MovePaddle(g.p2, false))
    else g
  }

  /** `checkGameOver`: over as soon as either side has 5. */
  function CheckGameOver(g: Game): (g': Game)
    ensures g'.over <==> g.over || g.p1.score >= WinningScore || g.p2.score >= WinningScore
    ensures g'.p1 == g.p1 && g'.p2 == g.p2 && g'.ball == g.ball
  {
    if g.p1.score >= WinningScore || g.p2.score >= WinningScore then g.(over := true) else g
  }

  datatype Side = Player1 | Player2

  /** The winner announced: player 1 when player 1 has 5, else player 2. */
  function Winner(g: Game): Side
  {
    if g.p1.score >= WinningScore then Player1 else Player2
  }

  /** `Game.update`: nothing once over; otherwise the ball, the AI in
      single-player mode, and the game-over check. */
  function Update(g: Game, now: int, rightward: bool, downward: bool): (g': Game)
    ensures g.over ==> g' == g
    ensures !g.over ==> g'.p1.score + g'.p2.score <= g.p1.score + g.p2.score + 1
    ensures !g.over ==> g'.p1.score >= g.p1.score && g'.p2.score >= g.p2.score
    ensures !g.over ==> (g'.over <==> g'.p1.score >= WinningScore || g'.p2.score >= WinningScore)
    ensures g'.singlePlayer == g.singlePlayer && g'.p1.y == g.p1.y
  {
    if g.over then g
    else
      var r := BallUpdate(g.ball, g.p1, g.p2, now, rightward, downward);
      var g1 := g.(ball := r.ball, p1 := r.p1, p2 := r.p2);
      var g2 := if g.singlePlayer then UpdateAI(g1) else g1;
      CheckGameOver(g2)
  }

  /** The constructor: paddles at x = 10 and x = 780, centred ball, 0–0. */
  function NewGame(singlePlayer: bool, now: int): (g: Game)
    ensures Inv(g)
    ensures g.p1.score == 0 && g.p2.score == 0 && !g.over
    ensures g.p1 == NewPaddle(10) && g.p2 == NewPaddle(780) && g.singlePlayer == singlePlayer
    ensures g.ball.x == CentreX && g.ball.y == CentreY && g.ball.speedX == BallSpeed && g.ball.speedY == BallSpeed
    ensures g.ball.lastSpeedUp == now
  {
    Game(NewPaddle(10), NewPaddle(780), Ball(CentreX, CentreY, BallSpeed, BallSpeed, now), false, singlePlayer)
  }

  /** Scores never pass 5, the game is over exactly when one side has 5,
      and never both; paddles stay in the field; the ball stays diagonal. */
  predicate Inv(g: Game)
  {
    && 0 <= g.p1.score <= WinningScore && 0 <= g.p2.score <= WinningScore
    && !(g.p1.score == WinningScore && g.p2.score == WinningScore)
    && (g.over <==> g.p1.score == WinningScore || g.p2.score == WinningScore)
    && PaddleInField(g.p1) && PaddleInField(g.p2)
    && Diagonal(g.ball)
  }

  lemma UpdateKeepsInv(g: Game, now: int, rightward: bool, downward: bool)
    requires Inv(g)
    ensures Inv(Update(g, now, rightward, downward))
  {
    if !g.over {
      BallUpdateKeepsDiagonal(g.ball, g.p1, g.p2, now, rightward, downward);
    }
  }

  /** A key press: W/S move the left paddle, and in two-player mode the
      arrows move the right one; key presses are handled even after the end. */
  datatype Key = KeyW | KeyS | ArrowUp | ArrowDown | OtherKey

  function KeyDown(g: Game, k: Key): (g': Game)
    ensures k == KeyW ==> g'.p1 == MovePaddle(g.p1, true)
    ensures k == KeyS ==> g'.p1 == MovePaddle(g.p1, false)
    ensures (k == ArrowUp || k == ArrowDown) && !g.singlePlayer ==> g'.p2 == MovePaddle(g.p2, k == ArrowUp)
    ensures (k == ArrowUp || k == ArrowDown) && g.singlePlayer ==> g' == g
    ensures Inv(g) ==> Inv(g')
  {
    match k
    case KeyW => g.(p1 := MovePaddle(g.p1, true))
    case KeyS => g.(p1 := MovePaddle(g.p1, false))
    case ArrowUp => if g.singlePlayer then g else g.(p2 := MovePaddle(g.p2, true))
    case ArrowDown => if g.singlePlayer then g else g.(p2 := MovePaddle(g.p2, false))
    case OtherKey => g
  }

  /** The side that reached 5 is the one announced. */
  lemma WinnerReachedFive(g: Game)
    requires Inv(g) && g.over
    ensures Winner(g) == Player1 <==> g.p1.score == WinningScore
    ensures Winner(g) == Player2 <==> g.p2.score == WinningScore
  {
  }

  datatype Event = Frame(now: int, rightward: bool, downward: bool) | Press(key: Key)

  function Run(g: Game, evs: seq<Event>): Game
    decreases |evs|
  {
    if |evs| == 0 then g
    else
      var g' := match evs[0]
        case Frame(now, r, d) => Update(g, now, r, d)
        case Press(k) => KeyDown(g, k);
      Run(g', evs[1..])
  }

  /** Over any run from a new game the invariant holds, so the final score
      is 5 to at most 4 and the announced winner is the side with 5. */
  lemma {:induction false} RunKeepsInv(g: Game, evs: seq<Event>)
    requires Inv(g)
    ensures Inv(Run(g, evs))
    decreases |evs|
  {
    if |evs| > 0 {
      if evs[0].Frame? {
        UpdateKeepsInv(g, evs[0].now, evs[0].rightward, evs[0].downward);
      }
      var g' := match evs[0]
        case Frame(now, r, d) => Update(g, now, r, d)
        case Press(k) => KeyDown(g, k);
      RunKeepsInv(g', evs[1..]);
    }
  }
}

=== FILE: race.dfy ===
/**
 Two-car top-down race: each car accelerates, brakes, steers, burns nitro
 and drifts; laps are counted by collecting every checkpoint of the track,
 obstacles bounce a car back with a cooldown, and touching cars trade
 speeds. The sine/cosine of the heading is supplied by the caller, and the
 lap clock is a parameter.
 */
module Race {
  import opened Geometry

  const CarWidth: real := 30.0
  const CarHeight: real := 15.0
  const BaseMaxSpeed: real := 5.0
  const NitroMaxSpeed: real := 8.0
  const Friction: real := 0.95
  const TurnSpeed: real := 0.03
  const Accel: real := 0.2
  const DriftStep: real := 0.1
  const MaxDrift: real := 0.8
  const DriftRecovery: real := 0.95
  const FullFuel: real := 100.0
  const NitroBurn: real := 0.5
  const NitroRefill: real := 0.1
  const TrailLength: nat := 10
  const CheckpointReach: real := 20.0
  const Bounce: real := -0.5
  const BounceCooldown: int := 30
  const Impact: real := 0.8

  datatype Pos = Pos(x: real, y: real, angle: real)

  /** A best lap time, `Infinity` until the first lap is done. */
  datatype Best = Infinity | Finite(t: real)

  datatype Car = Car(
    x: real, y: real, angle: real, speed: real, maxSpeed: real, driftFactor: real,
    checkpoints: set<nat>, currentLap: nat, lapTimes: seq<real>, bestLapTime: Best,
    nitroActive: bool, nitroFuel: real, trail: seq<Pos>, cooldown: int)

  function NewCar(x: real, y: real): (c: Car)
    ensures c.x == x && c.y == y && c.speed == 0.0 && c.maxSpeed == BaseMaxSpeed
    ensures c.checkpoints == {} && c.currentLap == 0 && c.lapTimes == [] && c.bestLapTime == Infinity
    ensures c.nitroFuel == FullFuel && !c.nitroActive && c.trail == [] && c.cooldown == 0
  {
    Car(x, y, 0.0, 0.0, BaseMaxSpeed, 0.0, {}, 0, [], Infinity, false, FullFuel, [], 0)
  }

  datatype Control = Up | Down | SteerLeft | SteerRight | Nitro | Drift

  /** `Car.handleInput`: throttle capped at the current top speed, reverse
      floored at half of it, steering only while moving (reversed when
      backing up), nitro only with fuel left, drift capped at 0.8. */
  function HandleInput(c: Car, keys: set<Control>): (c': Car)
    ensures Up in keys && Down !in keys ==> c'.speed == MinReal(c.speed + Accel, c.maxSpeed)
    ensures Down in keys && Up !in keys ==> c'.speed == MaxReal(c.speed - Accel, -c.maxSpeed / 2.0)
    ensures Up !in keys && Down !in keys ==> c'.speed == c.speed
    ensures Up in keys && c.maxSpeed >= 0.0 ==> c'.speed <= c.maxSpeed
    ensures Down in keys ==> c'.speed >= -c.maxSpeed / 2.0
    ensures c'.speed == 0.0 || (SteerLeft !in keys && SteerRight !in keys) ==> c'.angle == c.angle
    ensures c'.speed != 0.0 && SteerLeft in keys && SteerRight !in keys ==>
              c'.angle == c.angle - TurnSpeed * (if c'.speed > 0.0 then 1.0 else -1.0)
    ensures c'.speed != 0.0 && SteerRight in keys && SteerLeft !in keys ==>
              c'.angle == c.angle + TurnSpeed * (if c'.speed > 0.0 then 1.0 else -1.0)
    ensures SteerLeft in keys && SteerRight in keys ==> c'.angle == c.angle
    ensures c'.nitroActive <==> Nitro in keys && c.nitroFuel > 0.0
    ensures Drift in keys ==> c'.driftFactor == MinReal(c.driftFactor + DriftStep, MaxDrift)
    ensures Drift !in keys ==> c'.driftFactor == c.driftFactor
    ensures c'.x == c.x && c'.y == c.y && c'.nitroFuel == c.nitroFuel && c'.maxSpeed == c.maxSpeed
    ensures c'.checkpoints == c.checkpoints && c'.currentLap == c.currentLap && c'.cooldown == c.cooldown
    ensures c'.lapTimes == c.lapTimes && c'.bestLapTime == c.bestLapTime && c'.trail == c.trail
  {
    var s1 := if Up in keys then MinReal(c.speed + Accel, c.maxSpeed) else c.speed;
    var s2 := if Down in keys then MaxReal(s1 - Accel, -c.maxSpeed / 2.0) else s1;
    var sign := if s2 > 0.0 then 1.0 else -1.0;
    var a1 := if s2 != 0.0 && SteerLeft in keys then c.angle - TurnSpeed * sign else c.angle;
    var a2 := if s2 != 0.0 && SteerRight in keys then a1 + TurnSpeed * sign else a1;
    var drift := if Drift in keys then MinReal(c.driftFactor + DriftStep, MaxDrift) else c.driftFactor;
    c.(speed := s2, angle := a2, nitroActive := Nitro in keys && c.nitroFuel > 0.0, driftFactor := drift)
  }

  /** The ghost trail: the current position pushed at the front, the oldest
      dropped once there are more than ten. */
  function PushTrail(trail: seq<Pos>, p: Pos): (t: seq<Pos>)
    ensures |t| > 0 && t[0] == p
    ensures |trail| < TrailLength ==> t == [p] + trail
    ensures |trail| >= TrailLength ==> |t| == |trail| && t[1..] == trail[..|trail| - 1]
  {
    var t := [p] + trail;
    if |t| > TrailLength then t[..|t| - 1] else t
  }

  /** `Car.update`. The heading's contribution, `sin(angle)·speed` and
      `cos(angle)·speed`, is given as `moveX`, `moveY`; the drift factor
      scales it down. Nitro raises the top speed to 8 while it burns 0.5
      fuel a frame; otherwise fuel refills by 0.1 up to 100. */
  function Update(c: Car, moveX: real, moveY: real): (c': Car)
    ensures c'.trail == PushTrail(c.trail, Pos(c.x, c.y, c.angle))
    ensures c.nitroActive && c.nitroFuel > 0.0 ==> c'.maxSpeed == NitroMaxSpeed && c'.nitroFuel == MaxReal(0.0, c.nitroFuel - NitroBurn)
    ensures !(c.nitroActive && c.nitroFuel > 0.0) ==> c'.maxSpeed == BaseMaxSpeed && c'.nitroFuel == MinReal(FullFuel, c.nitroFuel + NitroRefill)
    ensures c.speed != 0.0 ==> c'.x == c.x + moveX * (1.0 - c.driftFactor) && c'.y == c.y - moveY * (1.0 - c.driftFactor)
    ensures c.speed == 0.0 ==> c'.x == c.x && c'.y == c.y
    ensures c'.speed == c.speed * Friction && c'.driftFactor == c.driftFactor * DriftRecovery
    ensures c'.cooldown == (if c.cooldown > 0 then c.cooldown - 1 else c.cooldown)
    ensures c'.checkpoints == c.checkpoints && c'.currentLap == c.currentLap
    ensures c'.lapTimes == c.lapTimes && c'.bestLapTime == c.bestLapTime && c'.angle == c.angle
    ensures c'.nitroActive == c.nitroActive
  {
    var trail := PushTrail(c.trail, Pos(c.x, c.y, c.angle));
    var burning := c.nitroActive && c.nitroFuel > 0.0;
    var maxSpeed := if burning then NitroMaxSpeed else BaseMaxSpeed;
    var fuel := if burning then MaxReal(0.0, c.nitroFuel - NitroBurn) else MinReal(FullFuel, c.nitroFuel + NitroRefill);
    var x := if c.speed != 0.0 then c.x + moveX * (1.0 - c.driftFactor) else c.x;
    var y := if c.speed != 0.0 then c.y - moveY * (1.0 - c.driftFactor) else c.y;
    c.(trail := trail, maxSpeed := maxSpeed, nitroFuel := fuel, x := x, y := y,
       speed := c.speed * Friction, driftFactor := c.driftFactor * DriftRecovery,
       cooldown := if c.cooldown > 0 then c.cooldown - 1 else c.cooldown)
  }

  /** The car's hit box: its (x, y) as top-left corner, 30×15. */
  function Body(c: Car): (r: Rect)
    ensures r.x == c.x && r.y == c.y && r.w == CarWidth && r.h == CarHeight
  {
    Rect(c.x, c.y, CarWidth, CarHeight)
  }

  datatype Point = Point(x: real, y: real)

  /** `checkPointCollision`: within 20 on both axes, strictly. */
  predicate AtCheckpoint(c: Car, p: Point)
  {
    AbsReal(c.x - p.x) < CheckpointReach && AbsReal(c.y - p.y) < CheckpointReach
  }

  /** The smaller of a best time and a new lap time (`Math.min` with
      `Infinity` as the identity). */
  function MinBest(b: Best, t: real): (r: Best)
    ensures r.Finite?
    ensures r.t <= t && (b.Finite? ==> r.t <= b.t)
    ensures r.t == t || (b.Finite? && r.t == b.t)
  {
    match b
    case Infinity => Finite(t)
    case Finite(u) => Finite(MinReal(u, t))
  }

  /** One checkpoint of the track's `forEach`: a new checkpoint is recorded,
      and collecting the last missing one completes a lap at `lapTime`. */
  function Visit(c: Car, n: nat, i: nat, p: Point, lapTime: real): (c': Car)
    ensures AtCheckpoint(c, p) && i !in c.checkpoints && |c.checkpoints + {i}| == n ==>
              c'.checkpoints == {} && c'.currentLap == c.currentLap + 1
              && c'.lapTimes == c.lapTimes + [lapTime] && c'.bestLapTime == MinBest(c.bestLapTime, lapTime)
    ensures AtCheckpoint(c, p) && i !in c.checkpoints && |c.checkpoints + {i}| != n ==>
              c'.checkpoints == c.checkpoints + {i} && c'.currentLap == c.currentLap && c'.lapTimes == c.lapTimes
    ensures !(AtCheckpoint(c, p) && i !in c.checkpoints) ==> c' == c
    ensures c'.(checkpoints := c.checkpoints, currentLap := c.currentLap, lapTimes := c.lapTimes, bestLapTime := c.bestLapTime) == c
  {
    if AtCheckpoint(c, p) && i !in c.checkpoints then
      var cps := c.checkpoints + {i};
      if |cps| == n then
        c.(checkpoints := {}, currentLap := c.currentLap + 1,
           lapTimes := c.lapTimes + [lapTime], bestLapTime := MinBest(c.bestLapTime, lapTime))
      else c.(checkpoints := cps)
    else c
  }

  /** The checkpoints from index `i` on, in track order. */
  function Checkpoints(c: Car, track: seq<Point>, i: nat, lapTime: real): (c': Car)
    requires i <= |track|
    ensures c'.currentLap >= c.currentLap
    ensures c'.(checkpoints := c.checkpoints, currentLap := c.currentLap, lapTimes := c.lapTimes, bestLapTime := c.bestLapTime) == c
    decreases |track| - i
  {
    if i == |track| then c
    else Checkpoints(Visit(c, |track|, i, track[i], lapTime), track, i + 1, lapTime)
  }

  /** `bestLapTime` is the least recorded lap time, or `Infinity` if none. */
  predicate IsBest(b: Best, laps: seq<real>)
  {
    && (b == Infinity <==> |laps| == 0)
    && (b.Finite? ==> b.t in laps && forall k :: 0 <= k < |laps| ==> b.t <= laps[k])
  }

  /** What the lap counter keeps: recorded checkpoints are track indices,
      fewer than all of them; one lap time per completed lap; the best of
      them. */
  predicate LapInv(c: Car, n: nat)
  {
    && (forall i :: i in c.checkpoints ==> i < n)
    && |c.checkpoints| < n
    && |c.lapTimes| == c.currentLap
    && IsBest(c.bestLapTime, c.lapTimes)
  }

  lemma MinBestIsBest(b: Best, laps: seq<real>, t: real)
    requires IsBest(b, laps)
    ensures IsBest(MinBest(b, t), laps + [t])
  {
    var r := MinBest(b, t);
    var laps' := laps + [t];
    forall k | 0 <= k < |laps'|
      ensures r.t <= laps'[k]
    {
      if k < |laps| {
        assert laps'[k] == laps[k];
      }
    }
    if r.t != t {
      assert r.t in laps;
      var k :| 0 <= k < |laps| && laps[k] == r.t;
      assert laps'[k] == r.t;
    } else {
      assert laps'[|laps|] == t;
    }
  }

  lemma VisitKeepsLapInv(c: Car, n: nat, i: nat, p: Point, lapTime: real)
    requires LapInv(c, n) && i < n
    ensures LapInv(Visit(c, n, i, p, lapTime), n)
  {
    if AtCheckpoint(c, p) && i !in c.checkpoints {
      var cps := c.checkpoints + {i};
      if |cps| == n {
        MinBestIsBest(c.bestLapTime, c.lapTimes, lapTime);
      }
    }
  }

  /** Each pass over the track keeps the lap invariant: a completed set of
      checkpoints is always cleared in the same visit. */
  lemma {:induction false} CheckpointsKeepLapInv(c: Car, track: seq<Point>, i: nat, lapTime: real)
    requires i <= |track| && LapInv(c, |track|)
    ensures LapInv(Checkpoints(c, track, i, lapTime), |track|)
    decreases |track| - i
  {
    if i < |track| {
      VisitKeepsLapInv(c, |track|, i, track[i], lapTime);
      CheckpointsKeepLapInv(Visit(c, |track|, i, track[i], lapTime), track, i + 1, lapTime);
    }
  }

  /** With fewer checkpoints recorded than indices already passed, the rest
      of the pass cannot fill the set: no lap completes. */
  lemma {:induction false} NoLapFromFewer(c: Car, track: seq<Point>, i: nat, lapTime: real)
    requires i <= |track| && |c.checkpoints| < i
    ensures Checkpoints(c, track, i, lapTime).currentLap == c.currentLap
    decreases |track| - i
  {
    if i < |track| {
      var c1 := Visit(c, |track|, i, track[i], lapTime);
      assert |c1.checkpoints| <= |c.checkpoints| + 1;
      NoLapFromFewer(c1, track, i + 1, lapTime);
    }
  }

  /** A single pass over the track completes at most one lap. */
  lemma {:induction false} AtMostOneLapPerPass(c: Car, track: seq<Point>, i: nat, lapTime: real)
    requires i <= |track| && |c.checkpoints| < |track|
    ensures Checkpoints(c, track, i, lapTime).currentLap <= c.currentLap + 1
    decreases |track| - i
  {
    if i < |track| {
      var c1 := Visit(c, |track|, i, track[i], lapTime);
      if c1.currentLap == c.currentLap + 1 {
        NoLapFromFewer(c1, track, i + 1, lapTime);
      } else {
        AtMostOneLapPerPass(c1, track, i + 1, lapTime);
      }
    }
  }

  /** The obstacle `forEach`: a hit while the cooldown is 0 reverses the car
      at half speed and starts a 30-frame cooldown. */
  function Obstacles(c: Car, obstacles: seq<Rect>): (c': Car)
    ensures c.cooldown != 0 ==> c' == c
    ensures c.cooldown == 0 && (exists k :: 0 <= k < |obstacles| && Overlaps(Body(c), obstacles[k])) ==>
              c'.speed == c.speed * Bounce && c'.cooldown == BounceCooldown
    ensures c.cooldown == 0 && (forall k :: 0 <= k < |obstacles| ==> !Overlaps(Body(c), obstacles[k])) ==> c' == c
    ensures c' == c || (c'.speed == c.speed * Bounce && c'.cooldown == BounceCooldown)
    ensures c'.x == c.x && c'.y == c.y && c'.checkpoints == c.checkpoints && c'.currentLap == c.currentLap
    ensures c'.lapTimes == c.lapTimes && c'.bestLapTime == c.bestLapTime
    decreases |obstacles|
  {
    if |obstacles| == 0 then c
    else
      var c1 := if Overlaps(Body(c), obstacles[0]) && c.cooldown == 0 then c.(speed := c.speed * Bounce, cooldown := BounceCooldown) else c;
      var r := Obstacles(c1, obstacles[1..]);
      assert forall k :: 1 <= k < |obstacles| ==> obstacles[k] == obstacles[1..][k - 1];
      r
  }

  /** The obstacles of the current track. Moving obstacles follow sine and
      cosine paths; their rectangles for this frame are given. */
  datatype Track = Track(checkpoints: seq<Point>, obstacles: seq<Rect>)

  datatype Game = Game(track: Track, p1: Car, p2: Car, keys1: set<Control>, keys2: set<Control>, raceStarted: bool)

  /** The start grid: both cars side by side just above the start line. */
  function NewGame(track: Track): (g: Game)
    ensures g.p1 == NewCar(400.0, 480.0) && g.p2 == NewCar(430.0, 480.0) && !g.raceStarted
    ensures |track.checkpoints| > 0 ==> Inv(g)
  {
    Game(track, NewCar(400.0, 480.0), NewCar(430.0, 480.0), {}, {}, false)
  }

  /** `checkCollisions`: each car's checkpoints and obstacles, then the two
      cars trade speeds, damped to 0.8, if they touch. */
  function CheckCollisions(g: Game, moving: seq<Rect>, lapTime: real): (g': Game)
    requires |g.track.checkpoints| > 0
    ensures g'.p1.currentLap >= g.p1.currentLap && g'.p2.currentLap >= g.p2.currentLap
    ensures g'.track == g.track && g'.keys1 == g.keys1 && g'.keys2 == g.keys2 && g'.raceStarted == g.raceStarted
  {
    var all := g.track.obstacles + moving;
    var c1 := Obstacles(Checkpoints(g.p1, g.track.checkpoints, 0, lapTime), all);
    var c2 := Obstacles(Checkpoints(g.p2, g.track.checkpoints, 0, lapTime), all);
    if Overlaps(Body(c1), Body(c2)) then
      g.(p1 := c1.(speed := c2.speed * Impact), p2 := c2.(speed := c1.speed * Impact))
    else g.(p1 := c1, p2 := c2)
  }

  /** `Game.update`: nothing before the countdown ends; then input, motion,
      and collisions for both cars. `move1`/`move2` are each car's heading
      times its speed, `moving` the moving obstacles' rectangles, `lapTime`
      the race clock. */
  function Step(g: Game, move1: Pos, move2: Pos, moving: seq<Rect>, lapTime: real): (g': Game)
    requires |g.track.checkpoints| > 0
    ensures !g.raceStarted ==> g' == g
    ensures g'.p1.currentLap >= g.p1.currentLap && g'.p2.currentLap >= g.p2.currentLap
  {
    if !g.raceStarted then g
    else
      var c1 := Update(HandleInput(g.p1, g.keys1), move1.x, move1.y);
      var c2 := Update(HandleInput(g.p2, g.keys2), move2.x, move2.y);
      CheckCollisions(g.(p1 := c1, p2 := c2), moving, lapTime)
  }

  /** Bounds every car keeps: fuel in [0, 100], drift in [0, 0.8], a
      cooldown in [0, 30], at most ten trail entries, a top speed of 5 or 8
      and a speed within ±8, and the lap invariant. */
  predicate CarInv(c: Car, n: nat)
  {
    && 0.0 <= c.nitroFuel <= FullFuel
    && 0.0 <= c.driftFactor <= MaxDrift
    && 0 <= c.cooldown <= BounceCooldown
    && |c.trail| <= TrailLength
    && (c.maxSpeed == BaseMaxSpeed || c.maxSpeed == NitroMaxSpeed)
    && -NitroMaxSpeed <= c.speed <= NitroMaxSpeed
    && LapInv(c, n)
  }

  predicate Inv(g: Game)
  {
    |g.track.checkpoints| > 0 && CarInv(g.p1, |g.track.checkpoints|) && CarInv(g.p2, |g.track.checkpoints|)
  }

  lemma CarStepKeepsInv(c: Car, n: nat, keys: set<Control>, move: Pos)
    requires CarInv(c, n)
    ensures CarInv(Update(HandleInput(c, keys), move.x, move.y), n)
  {
  }

  lemma ObstaclesKeepInv(c: Car, n: nat, obstacles: seq<Rect>)
    requires CarInv(c, n)
    ensures CarInv(Obstacles(c, obstacles), n)
  {
  }

  lemma {:induction false} StepKeepsInv(g: Game, move1: Pos, move2: Pos, moving: seq<Rect>, lapTime: real)
    requires Inv(g)
    ensures Inv(Step(g, move1, move2, moving, lapTime))
  {
    if g.raceStarted {
      var n := |g.track.checkpoints|;
      var c1 := Update(HandleInput(g.p1, g.keys1), move1.x, move1.y);
      var c2 := Update(HandleInput(g.p2, g.keys2), move2.x, move2.y);
      CarStepKeepsInv(g.p1, n, g.keys1, move1);
      CarStepKeepsInv(g.p2, n, g.keys2, move2);
      var all := g.track.obstacles + moving;
      CheckpointsKeepLapInv(c1, g.track.checkpoints, 0, lapTime);
      CheckpointsKeepLapInv(c2, g.track.checkpoints, 0, lapTime);
      var d1 := Checkpoints(c1, g.track.checkpoints, 0, lapTime);
      var d2 := Checkpoints(c2, g.track.checkpoints, 0, lapTime);
      assert CarInv(d1, n) && CarInv(d2, n);
      ObstaclesKeepInv(d1, n, all);
      ObstaclesKeepInv(d2, n, all);
    }
  }

  datatype Event =
    | Frame(move1: Pos, move2: Pos, moving: seq<Rect>, lapTime: real)
    | KeyDown(first: bool, key: Control)
    | KeyUp(first: bool, key: Control)
    | CountdownOver

  /** One event: a frame, a key going down or up in the pressing player's
      set, or the end of the countdown, which starts the race. */
  function Apply(g: Game, e: Event): (g': Game)
    requires |g.track.checkpoints| > 0
    ensures e.Frame? ==> g' == Step(g, e.move1, e.move2, e.moving, e.lapTime)
    ensures e.KeyDown? ==> (if e.first then e.key in g'.keys1 else e.key in g'.keys2)
    ensures e.KeyUp? ==> (if e.first then e.key !in g'.keys1 else e.key !in g'.keys2)
    ensures (e.KeyDown? || e.KeyUp?) ==>
              && g'.p1 == g.p1 && g'.p2 == g.p2 && g'.raceStarted == g.raceStarted
              && (e.first ==> g'.keys2 == g.keys2 && g'.keys1 - {e.key} == g.keys1 - {e.key})
              && (!e.first ==> g'.keys1 == g.keys1 && g'.keys2 - {e.key} == g.keys2 - {e.key})
    ensures e.CountdownOver? ==> g' == g.(raceStarted := true)
    ensures g'.track == g.track
  {
    match e
    case Frame(m1, m2, moving, t) => Step(g, m1, m2, moving, t)
    case KeyDown(first, k) => if first then g.(keys1 := g.keys1 + {k}) else g.(keys2 := g.keys2 + {k})
    case KeyUp(first, k) => if first then g.(keys1 := g.keys1 - {k}) else g.(keys2 := g.keys2 - {k})
    case CountdownOver => g.(raceStarted := true)
  }

  function Run(g: Game, evs: seq<Event>): Game
    requires Inv(g)
    decreases |evs|
  {
    if |evs| == 0 then g
    else
      var g1 := Apply(g, evs[0]);
      RunStepKeepsInv(g, evs[0]);
      Run(g1, evs[1..])
  }

  lemma RunStepKeepsInv(g: Game, e: Event)
    requires Inv(g)
    ensures Inv(Apply(g, e))
  {
    if e.Frame? {
      StepKeepsInv(g, e.move1, e.move2, e.moving, e.lapTime);
    }
  }

  /** Over any sequence of frames and key presses, every car keeps its
      bounds and its lap count never goes down. */
  lemma {:induction false} RunKeepsInv(g: Game, evs: seq<Event>)
    requires Inv(g)
    ensures Inv(Run(g, evs))
    ensures Run(g, evs).p1.currentLap >= g.p1.currentLap && Run(g, evs).p2.currentLap >= g.p2.currentLap
    decreases |evs|
  {
    if |evs| > 0 {
      RunStepKeepsInv(g, evs[0]);
      RunKeepsInv(Apply(g, evs[0]), evs[1..]);
    }
  }
}

=== FILE: runner.dfy ===
/**
 The side-scrolling runner: a player that jumps under gravity, obstacles and
 power-ups scrolling in from the right, four timed power-ups, and the
 per-frame collision filters. Obstacle heights, power-up heights and
 power-up types come from `Math.random` and are parameters here.
 */
module Runner {
  import opened Geometry

  const PlayerSize: real := 30.0
  const PlayerX: real := 50.0
  const Gravity: real := 0.8
  const OriginalJumpForce: real := -15.0
  /** The flash power-up multiplies the jump force by 1.35. */
  const FlashJumpForce: real := -20.25
  const ObstacleWidth: real := 20.0
  const PowerUpSize: real := 30.0
  const ScrollSpeed: real := 5.0
  /** Frames between power-up spawns (`powerUpTimer > 750`). */
  const PowerUpInterval: int := 750
  /** `this.scoreMultiplier`, set to 1 and never changed. */
  const ScoreMultiplier: real := 1.0

  datatype PowerKind = SuperS | CapShield | IronMan | Flash

  /** `null` or one of the four power-up names. */
  datatype Power = NoPower | Powered(kind: PowerKind)

  datatype Player = Player(
    y: real,
    dy: real,
    jumpForce: real,
    grounded: bool,
    jumpsRemaining: int,
    powerUp: Power,
    powerUpTimer: int,
    ironManCounter: int)

  /** Highest `y` of the player: standing on the ground line. */
  function Ground(height: real): real
  {
    height - PlayerSize - 10.0
  }

  function NewPlayer(height: real): (p: Player)
    ensures p.y == Ground(height) && p.grounded && p.jumpsRemaining == 1
    ensures p.powerUp == NoPower && p.ironManCounter == 0 && p.jumpForce == OriginalJumpForce
  {
    Player(Ground(height), 0.0, OriginalJumpForce, true, 1, NoPower, 0, 0)
  }

  /** `jump`: only with a jump left, which it uses up. */
  function Jump(p: Player): (p': Player)
    ensures p.jumpsRemaining > 0 ==> && p'.jumpsRemaining == p.jumpsRemaining - 1
                                     && p'.dy == p.jumpForce && !p'.grounded
                                     && p'.y == p.y && p'.powerUp == p.powerUp
    ensures p.jumpsRemaining <= 0 ==> p' == p
    ensures p.jumpsRemaining >= 0 ==> p'.jumpsRemaining >= 0
  {
    if p.jumpsRemaining > 0 then p.(dy := p.jumpForce, jumpsRemaining := p.jumpsRemaining - 1, grounded := false)
    else p
  }

  /** `activatePowerUp(type)`. */
  function Activate(p: Player, kind: PowerKind): (p': Player)
    ensures p'.powerUp == Powered(kind)
    ensures kind == SuperS ==> p'.powerUpTimer == 660 && p'.jumpsRemaining == 2
    ensures kind == CapShield ==> p'.powerUpTimer == 780 && p'.jumpsRemaining == p.jumpsRemaining
    ensures kind == IronMan ==> p'.powerUpTimer == 660 && p'.ironManCounter == 4 && p'.jumpsRemaining == 2
    ensures kind == Flash ==> p'.powerUpTimer == 720 && p'.jumpForce == FlashJumpForce
                              && p'.jumpsRemaining == p.jumpsRemaining
    ensures kind != IronMan ==> p'.ironManCounter == p.ironManCounter
    ensures kind != Flash ==> p'.jumpForce == p.jumpForce
    ensures p'.y == p.y && p'.dy == p.dy && p'.grounded == p.grounded
  {
    var p1 := p.(powerUp := Powered(kind));
    match kind
    case SuperS => p1.(powerUpTimer := 11 * 60, jumpsRemaining := 2)
    case CapShield => p1.(powerUpTimer := 13 * 60)
    case IronMan => p1.(powerUpTimer := 11 * 60, ironManCounter := 4, jumpsRemaining := 2)
    case Flash => p1.(powerUpTimer := 12 * 60, jumpForce := OriginalJumpForce * 1.35)
  }

  /** `deactivatePowerUp`: the flash jump force goes back to normal; the
      power-up itself is dropped unless it is iron man with hits left. */
  function Deactivate(p: Player): (p': Player)
    ensures p.powerUp == Powered(Flash) ==> p'.jumpForce == OriginalJumpForce
    ensures p.powerUp != Powered(Flash) ==> p'.jumpForce == p.jumpForce
    ensures p'.powerUp == (if p.powerUp == Powered(IronMan) && p.ironManCounter != 0 then p.powerUp else NoPower)
    ensures p'.jumpsRemaining == p.jumpsRemaining && p'.ironManCounter == p.ironManCounter
    ensures p'.powerUpTimer == p.powerUpTimer
  {
    var p1 := if p.powerUp == Powered(Flash) then p.(jumpForce := OriginalJumpForce) else p;
    if p1.powerUp != Powered(IronMan) || p1.ironManCounter == 0 then p1.(powerUp := NoPower) else p1
  }

  /** Two jumps are allowed while super-S or iron man is active. */
  function JumpBudget(power: Power): int
  {
    if power == Powered(SuperS) || power == Powered(IronMan) then 2 else 1
  }

  /** `Player.update`: gravity, landing on the ground line, power-up timer. */
  function PlayerUpdate(p: Player, height: real): (p': Player)
    ensures p'.y <= Ground(height)
    ensures p.y + p.dy + Gravity > Ground(height) ==>
              && p'.y == Ground(height) && p'.dy == 0.0 && p'.grounded
              && p'.jumpsRemaining == JumpBudget(p.powerUp)
    ensures p.y + p.dy + Gravity <= Ground(height) ==>
              && p'.y == p.y + p.dy + Gravity && p'.dy == p.dy + Gravity
              && p'.jumpsRemaining == p.jumpsRemaining && p'.grounded == p.grounded
    ensures p.powerUp == NoPower ==> p'.powerUp == NoPower && p'.powerUpTimer == p.powerUpTimer
    ensures p.powerUp != NoPower ==> p'.powerUpTimer == p.powerUpTimer - 1
    ensures p.powerUp != NoPower && p.powerUpTimer - 1 > 0 ==> p'.powerUp == p.powerUp
    ensures p'.ironManCounter == p.ironManCounter
  {
    var dy := p.dy + Gravity;
    var y := p.y + dy;
    var p1 := if y > Ground(height) then
                p.(y := Ground(height), dy := 0.0, grounded := true, jumpsRemaining := JumpBudget(p.powerUp))
              else p.(y := y, dy := dy);
    if p1.powerUp != NoPower then
      var p2 := p1.(powerUpTimer := p1.powerUpTimer - 1);
      if p2.powerUpTimer <= 0 then Deactivate(p2) else p2
    else p1
  }

  function PlayerRect(p: Player): Rect
  {
    Rect(PlayerX, p.y, PlayerSize, PlayerSize)
  }

  datatype Obstacle = Obstacle(x: real, y: real, height: real)

  /** A new obstacle at the right edge standing on the ground line;
      `draw` is the value of `Math.random()` that sets its height. */
  function NewObstacle(width: real, height: real, draw: real): (o: Obstacle)
    requires 0.0 <= draw < 1.0
    ensures 20.0 <= o.height < 120.0
    ensures o.x == width && o.y + o.height == height - 10.0
  {
    var h := draw * 100.0 + 20.0;
    Obstacle(width, height - h - 10.0, h)
  }

  function ObstacleRect(o: Obstacle): Rect
  {
    Rect(o.x, o.y, ObstacleWidth, o.height)
  }

  datatype Item = Item(x: real, y: real, kind: PowerKind)

  /** `getMaxJumpHeight`: the apex of a jump, `jumpForce² / (2 · gravity)`. */
  function MaxJumpHeight(p: Player): (r: real)
    ensures r >= 0.0
  {
    p.jumpForce * p.jumpForce / (2.0 * Gravity)
  }

  /** A new power-up at the right edge, never higher on screen than
      `height - MaxJumpHeight(p)`, so that a jump can reach it; `draw` is the
      random value for its height and `kind` the random type. */
  function NewItem(width: real, height: real, p: Player, draw: real, kind: PowerKind): (it: Item)
    ensures it.x == width && it.kind == kind
    ensures it.y >= height - MaxJumpHeight(p)
    ensures it.y >= draw * (height - PowerUpSize - 60.0) + 30.0
    ensures it.y == height - MaxJumpHeight(p) || it.y == draw * (height - PowerUpSize - 60.0) + 30.0
  {
    Item(width, MaxReal(height - MaxJumpHeight(p), draw * (height - PowerUpSize - 60.0) + 30.0), kind)
  }

  function ItemRect(i: Item): Rect
  {
    Rect(i.x, i.y, PowerUpSize, PowerUpSize)
  }

  /** `checkCollision(player, obstacle)`. */
  predicate CheckCollision(p: Player, o: Obstacle)
  {
    Overlaps(PlayerRect(p), ObstacleRect(o))
  }

  /** What the collision filters carry from one entity to the next. */
  datatype Pass = Pass(player: Player, over: bool, highScore: int)

  /** `endGame`: the run ends, and the high score becomes the final score
      `floor(score / 10)` only if that beats it. */
  function EndGame(st: Pass, score: real): (st': Pass)
    ensures st'.over && st'.player == st.player
    ensures st'.highScore >= st.highScore
    ensures st'.highScore >= (score / 10.0).Floor
    ensures st'.highScore == st.highScore || st'.highScore == (score / 10.0).Floor
  {
    var finalScore := (score / 10.0).Floor;
    if finalScore > st.highScore then st.(over := true, highScore := finalScore) else st.(over := true)
  }

  datatype Resolved = Resolved(st: Pass, keep: bool)

  /** The callback of the obstacle filter for one obstacle, already moved. */
  function ResolveObstacle(st: Pass, o: Obstacle, score: real): (r: Resolved)
    ensures CheckCollision(st.player, o) && st.player.powerUp == Powered(CapShield) ==>
              r == Resolved(st, false)
    ensures CheckCollision(st.player, o) && st.player.powerUp == Powered(IronMan) && st.player.ironManCounter > 0 ==>
              !r.keep && !r.st.over == !st.over
              && r.st.player == st.player.(ironManCounter := st.player.ironManCounter - 1)
    ensures CheckCollision(st.player, o) && st.player.powerUp != Powered(CapShield)
            && !(st.player.powerUp == Powered(IronMan) && st.player.ironManCounter > 0) ==>
              r.st.over && r.st.player == st.player
    ensures !CheckCollision(st.player, o) ==> r.st == st
    ensures !(CheckCollision(st.player, o) && st.player.powerUp == Powered(CapShield))
            && !(CheckCollision(st.player, o) && st.player.powerUp == Powered(IronMan) && st.player.ironManCounter > 0) ==>
              r.keep == (o.x > -ObstacleWidth)
    ensures st.player.ironManCounter >= 0 ==> r.st.player.ironManCounter >= 0
    ensures st.over ==> r.st.over
  {
    if CheckCollision(st.player, o) then
      if st.player.powerUp == Powered(CapShield) then Resolved(st, false)
      else if st.player.powerUp == Powered(IronMan) && st.player.ironManCounter > 0 then
        Resolved(st.(player := st.player.(ironManCounter := st.player.ironManCounter - 1)), false)
      else Resolved(EndGame(st, score), o.x > -ObstacleWidth)
    else Resolved(st, o.x > -ObstacleWidth)
  }

  /** `obstacle.update()`: one scroll step to the left. */
  function MoveObstacle(o: Obstacle): (o': Obstacle)
    ensures o'.x == o.x - ScrollSpeed && o'.y == o.y && o'.height == o.height
  {
    o.(x := o.x - ScrollSpeed)
  }

  datatype ObstacleResult = ObstacleResult(st: Pass, kept: seq<Obstacle>)

  /** `this.obstacles.filter(...)`: each obstacle moves left, then is resolved
      against the player; the player's state threads through in order. */
  function ObstacleFilter(st: Pass, obs: seq<Obstacle>, score: real): (r: ObstacleResult)
    ensures |r.kept| <= |obs|
    ensures st.player.ironManCounter >= 0 ==> 0 <= r.st.player.ironManCounter <= st.player.ironManCounter
    ensures st.over ==> r.st.over
    ensures r.st.highScore >= st.highScore
    ensures r.st.player.jumpsRemaining == st.player.jumpsRemaining
    ensures r.st.player.powerUp == st.player.powerUp && r.st.player.y == st.player.y
    ensures forall i :: 0 <= i < |r.kept| ==> r.kept[i].x > -ObstacleWidth
    decreases |obs|
  {
    if |obs| == 0 then ObstacleResult(st, [])
    else
      var o := MoveObstacle(obs[0]);
      var res := ResolveObstacle(st, o, score);
      var rest := ObstacleFilter(res.st, obs[1..], score);
      ObstacleResult(rest.st, (if res.keep then [o] else []) + rest.kept)
  }

  datatype ItemResult = ItemResult(player: Player, kept: seq<Item>)

  /** `powerUp.update()`: one scroll step to the left. */
  function MoveItem(it: Item): (it': Item)
    ensures it'.x == it.x - ScrollSpeed && it'.y == it.y && it'.kind == it.kind
  {
    it.(x := it.x - ScrollSpeed)
  }

  /** A player whose top is at `y` touches the item once it has moved. The
      player's column is fixed, so only the height matters. */
  predicate Touches(y: real, it: Item)
  {
    Overlaps(Rect(PlayerX, y, PlayerSize, PlayerSize), ItemRect(MoveItem(it)))
  }

  /** The moved items a player at height `y` does not touch and that are
      still on screen, in their order. */
  function Survivors(y: real, items: seq<Item>): (s: seq<Item>)
    ensures |s| <= |items|
    decreases |items|
  {
    if |items| == 0 then []
    else if Touches(y, items[0]) || MoveItem(items[0]).x <= -PowerUpSize then Survivors(y, items[1..])
    else [MoveItem(items[0])] + Survivors(y, items[1..])
  }

  /** `this.powerUps.filter(...)`: each power-up moves left; one the player
      touches is activated and removed. Activation never moves the player,
      so the items kept are the survivors at the player's height, and the
      power-up in force is the last one touched. */
  function ItemFilter(p: Player, items: seq<Item>): (r: ItemResult)
    ensures |r.kept| <= |items|
    ensures forall i :: 0 <= i < |r.kept| ==> r.kept[i].x > -PowerUpSize
    ensures r.kept == Survivors(p.y, items)
    ensures (forall i :: 0 <= i < |items| ==> !Touches(p.y, items[i])) ==> r.player == p
    ensures forall i :: 0 <= i < |items| && Touches(p.y, items[i])
                        && (forall j :: i < j < |items| ==> !Touches(p.y, items[j]))
                        ==> r.player.powerUp == Powered(items[i].kind)
    ensures r.player.y == p.y
    ensures 0 <= p.jumpsRemaining <= 2 ==> 0 <= r.player.jumpsRemaining <= 2
    ensures 0 <= p.ironManCounter <= 4 ==> 0 <= r.player.ironManCounter <= 4
    decreases |items|
  {
    if |items| == 0 then ItemResult(p, [])
    else
      var it := MoveItem(items[0]);
      if Overlaps(PlayerRect(p), ItemRect(it)) then ItemFilter(Activate(p, it.kind), items[1..])
      else
        var rest := ItemFilter(p, items[1..]);
        ItemResult(rest.player, (if it.x > -PowerUpSize then [it] else []) + rest.kept)
  }

  /** The random values one frame may draw: the obstacle's height, the
      power-up's height and the power-up's type. */
  datatype Spawns = Spawns(obstacleDraw: real, itemDraw: real, itemKind: PowerKind)

  predicate ValidSpawns(rnd: Spawns)
  {
    0.0 <= rnd.obstacleDraw < 1.0 && 0.0 <= rnd.itemDraw < 1.0
  }

  datatype Game = Game(
    width: real,
    height: real,
    player: Player,
    obstacles: seq<Obstacle>,
    items: seq<Item>,
    score: real,
    highScore: int,
    over: bool,
    obstacleTimer: int,
    powerUpTimer: int,
    slow: bool)

  /** `gameSpeed`: 0.5 while flash is active (set at the end of the frame before), else 1. */
  function GameSpeed(g: Game): (r: real)
    ensures r > 0.0
  {
    if g.slow then 0.5 else 1.0
  }

  /** The bounds every reachable state keeps. */
  predicate Inv(g: Game)
  {
    && 0 <= g.player.jumpsRemaining <= 2
    && 0 <= g.player.ironManCounter <= 4
    && g.obstacleTimer >= 0 && g.powerUpTimer >= 0
    && g.player.y <= Ground(g.height)
  }

  /** `Game.update`. */
  function Update(g: Game, rnd: Spawns): (g': Game)
    requires ValidSpawns(rnd)
    ensures g.over ==> g' == g
    ensures !g.over ==> g'.score > g.score
    ensures !g.over ==> g'.score == g.score + ScoreMultiplier * (if g'.player.powerUp == Powered(Flash) then 0.5 else 1.0)
    ensures !g.over ==> g'.slow == (g'.player.powerUp == Powered(Flash))
    ensures g'.highScore >= g.highScore
    ensures Inv(g) ==> Inv(g')
  {
    if g.over then g
    else
      var p := PlayerUpdate(g.player, g.height);
      var ot := g.obstacleTimer + 1;
      var spawnObstacle := ot as real > 100.0 / GameSpeed(g);
      var obs := if spawnObstacle then g.obstacles + [NewObstacle(g.width, g.height, rnd.obstacleDraw)] else g.obstacles;
      var pt := g.powerUpTimer + 1;
      var spawnItem := pt > PowerUpInterval;
      var items := if spawnItem then g.items + [NewItem(g.width, g.height, p, rnd.itemDraw, rnd.itemKind)] else g.items;
      var o := ObstacleFilter(Pass(p, g.over, g.highScore), obs, g.score);
      var it := ItemFilter(o.st.player, items);
      var slow := it.player.powerUp == Powered(Flash);
      var speed := if slow then 0.5 else 1.0;
      g.(player := it.player, obstacles := o.kept, items := it.kept,
         score := g.score + ScoreMultiplier * speed, highScore := o.st.highScore, over := o.st.over,
         obstacleTimer := if spawnObstacle then 0 else ot, powerUpTimer := if spawnItem then 0 else pt,
         slow := slow)
  }

  /** `restart`: score, both spawn timers and both lists back to zero, a new
      player. The high score and the game speed of the last frame are kept. */
  function Restart(g: Game): (g': Game)
    ensures !g'.over && g'.score == 0.0
    ensures g'.obstacles == [] && g'.items == [] && g'.obstacleTimer == 0 && g'.powerUpTimer == 0
    ensures g'.player == NewPlayer(g.height)
    ensures g'.highScore == g.highScore && g'.slow == g.slow
    ensures Inv(g')
  {
    g.(over := false, score := 0.0, obstacles := [], items := [], obstacleTimer := 0, powerUpTimer := 0,
       player := NewPlayer(g.height))
  }

  /** Space or a touch: restart after game over, otherwise jump. */
  function Press(g: Game): (g': Game)
    ensures g.over ==> g' == Restart(g)
    ensures !g.over ==> g' == g.(player := Jump(g.player))
    ensures Inv(g) ==> Inv(g')
  {
    if g.over then Restart(g) else g.(player := Jump(g.player))
  }

  /** The high score after a run is the larger of the stored one and the
      final score. */
  lemma EndGameKeepsBest(st: Pass, score: real)
    ensures EndGame(st, score).highScore == (if (score / 10.0).Floor > st.highScore then (score / 10.0).Floor else st.highScore)
  {
  }

  /** Power-ups wear off: a power-up other than iron man with hits left is
      gone after the frame on which its timer runs out. */
  lemma PowerUpExpires(p: Player, height: real)
    requires p.powerUp != NoPower && p.powerUpTimer <= 1
    requires p.powerUp != Powered(IronMan) || p.ironManCounter == 0
    ensures PlayerUpdate(p, height).powerUp == NoPower
  {
  }

  /** `checkCollision` asks the same question whichever rectangle is named first. */
  lemma CheckCollisionSymmetric(p: Player, o: Obstacle)
    ensures CheckCollision(p, o) <==> Overlaps(ObstacleRect(o), PlayerRect(p))
  {
    OverlapsSymmetric(PlayerRect(p), ObstacleRect(o));
  }

  /** The shield makes every obstacle harmless: a frame's obstacle pass
      never ends a running game while it is active, and nothing the pass
      touches survives contact. */
  lemma {:induction false} ShieldNeverEnds(st: Pass, obs: seq<Obstacle>, score: real)
    requires st.player.powerUp == Powered(CapShield) && !st.over
    ensures !ObstacleFilter(st, obs, score).st.over
    ensures ObstacleFilter(st, obs, score).st.player == st.player
    decreases |obs|
  {
    if |obs| > 0 {
      var res := ResolveObstacle(st, MoveObstacle(obs[0]), score);
      assert res.st == st;
      ShieldNeverEnds(st, obs[1..], score);
    }
  }

  /** What can happen between two frames. */
  datatype Event = Tick(rnd: Spawns) | Tap

  predicate ValidEvents(evs: seq<Event>)
  {
    forall i :: 0 <= i < |evs| ==> evs[i].Tap? || ValidSpawns(evs[i].rnd)
  }

  function Step(g: Game, e: Event): (g': Game)
    requires e.Tap? || ValidSpawns(e.rnd)
    ensures Inv(g) ==> Inv(g')
    ensures g'.highScore >= g.highScore
  {
    match e
    case Tick(rnd) => Update(g, rnd)
    case Tap => Press(g)
  }

  function Run(g: Game, evs: seq<Event>): Game
    requires ValidEvents(evs)
    decreases |evs|
  {
    if |evs| == 0 then g else Run(Step(g, evs[0]), evs[1..])
  }

  /** From a restart, every sequence of frames and taps keeps the jump
      budget within 0..2, the iron-man counter within 0..4, and the player
      on or above the ground line; the high score never goes down. */
  lemma {:induction false} RunKeepsInv(g: Game, evs: seq<Event>)
    requires Inv(g) && ValidEvents(evs)
    ensures Inv(Run(g, evs))
    ensures Run(g, evs).highScore >= g.highScore
    decreases |evs|
  {
    if |evs| > 0 {
      assert ValidEvents(evs[1..]) by {
        forall i | 0 <= i < |evs[1..]| ensures evs[1..][i].Tap? || ValidSpawns(evs[1..][i].rnd) {
          assert evs[1..][i] == evs[i + 1];
        }
      }
      RunKeepsInv(Step(g, evs[0]), evs[1..]);
    }
  }
}

=== FILE: tetromino.dfy ===
/**
 The falling piece of the block stacker: the seven fixed bit patterns, the
 spawn position, and the quarter-turn rotation (transpose, then reverse each
 new row).
 */
module Tetromino {

  datatype Kind = I | O | T | S | Z | J | L

  /** Rows of cells, `true` where the piece has a square. */
  type Pattern = seq<seq<bool>>

  /** A piece: its type, its current pattern and the grid position of the
      pattern's top-left cell. */
  datatype Block = Block(kind: Kind, pattern: Pattern, x: int, y: int)

  const SpawnX: int := 3
  const SpawnY: int := 0

  /** Non-empty, and every row as long as the first. */
  predicate Rectangular(p: Pattern)
  {
    && |p| > 0
    && |p[0]| > 0
    && forall r :: 0 <= r < |p| ==> |p[r]| == |p[0]|
  }

  const X := true
  const o := false

  /** The seven patterns, as the source lists them. */
  function Shape(k: Kind): (p: Pattern)
    ensures Rectangular(p)
    ensures |p| <= 2 && |p[0]| <= 4
  {
    match k
    case I => [[X, X, X, X]]
    case O => [[X, X], [X, X]]
    case T => [[o, X, o], [X, X, X]]
    case S => [[o, X, X], [X, X, o]]
    case Z => [[X, X, o], [o, X, X]]
    case J => [[X, o, o], [X, X, X]]
    case L => [[o, o, X], [X, X, X]]
  }

  /** The constructor: a fresh piece of type `k` at the spawn position. */
  function NewBlock(k: Kind): (b: Block)
    ensures b.kind == k && b.pattern == Shape(k) && b.x == 3 && b.y == 0
    ensures Rectangular(b.pattern) && |b.pattern| <= 2 && |b.pattern[0]| <= 4
  {
    Block(k, Shape(k), SpawnX, SpawnY)
  }

  /** Column `i` of `p`, top to bottom (`pattern.map(row => row[i])`). */
  function Column(p: Pattern, i: nat): (c: seq<bool>)
    requires forall r :: 0 <= r < |p| ==> i < |p[r]|
    ensures |c| == |p|
  {
    seq(|p|, r requires 0 <= r < |p| && i < |p[r]| => p[r][i])
  }

  function Reverse<A>(s: seq<A>): (t: seq<A>)
    ensures |t| == |s|
  {
    seq(|s|, k requires 0 <= k < |s| => s[|s| - 1 - k])
  }

  /** `rotate`: row `i` of the result is column `i` read bottom to top, so the
      pattern turns a quarter clockwise. */
  function Rotate(p: Pattern): (r: Pattern)
    requires Rectangular(p)
    ensures Rectangular(r)
    ensures |r| == |p[0]| && |r[0]| == |p|
    ensures forall i, j :: 0 <= i < |r| && 0 <= j < |p| ==> r[i][j] == p[|p| - 1 - j][i]
  {
    seq(|p[0]|, i requires 0 <= i < |p[0]| => Reverse(Column(p, i)))
  }

  /** A clockwise quarter turn: pattern to piece to pattern. */
  function RotateBlock(b: Block): (b': Block)
    requires Rectangular(b.pattern)
    ensures b'.kind == b.kind && b'.x == b.x && b'.y == b.y
    ensures Rectangular(b'.pattern)
  {
    b.(pattern := Rotate(b.pattern))
  }

  // ---------------------------------------------------------------------
  // Counting filled cells

  function Bit(b: bool): nat
  {
    if b then 1 else 0
  }

  /** Filled cells of one row. */
  function CountTrue(s: seq<bool>): nat
  {
    if |s| == 0 then 0 else CountTrue(s[..|s| - 1]) + Bit(s[|s| - 1])
  }

  /** Filled cells of a pattern, row by row. */
  function Count(p: Pattern): nat
  {
    if |p| == 0 then 0 else Count(p[..|p| - 1]) + CountTrue(p[|p| - 1])
  }

  /** Filled cells of a pattern, column by column over the first `n` columns. */
  function SumColumns(p: Pattern, n: nat): nat
    requires forall r :: 0 <= r < |p| ==> n <= |p[r]|
  {
    if n == 0 then 0 else SumColumns(p, n - 1) + CountTrue(Column(p, n - 1))
  }

  lemma {:induction false} CountTrueAppend(a: seq<bool>, b: seq<bool>)
    ensures CountTrue(a + b) == CountTrue(a) + CountTrue(b)
    decreases |b|
  {
    if |b| > 0 {
      var b' := b[..|b| - 1];
      assert (a + b)[..|a + b| - 1] == a + b';
      CountTrueAppend(a, b');
    } else {
      assert a + b == a;
    }
  }

  lemma {:induction false} CountTrueReverse(s: seq<bool>)
    ensures CountTrue(Reverse(s)) == CountTrue(s)
    decreases |s|
  {
    if |s| > 0 {
      var n := |s|;
      var s' := s[..n - 1];
      assert Reverse(s) == [s[n - 1]] + Reverse(s');
      CountTrueAppend([s[n - 1]], Reverse(s'));
      assert [s[n - 1]][..0] == [];
      CountTrueReverse(s');
    }
  }

  /** Counting the first `n` columns of a pattern equals counting the same
      cells row by row. */
  lemma {:induction false} SumColumnsByRows(p: Pattern, n: nat)
    requires forall r :: 0 <= r < |p| ==> |p[r]| == n
    ensures SumColumns(p, n) == Count(p)
    decreases |p|
  {
    if |p| == 0 {
      SumColumnsEmpty(p, n);
    } else {
      var m := |p|;
      SumColumnsSplitLast(p, n);
      SumColumnsByRows(p[..m - 1], n);
      assert p[m - 1][..n] == p[m - 1];
    }
  }

  lemma {:induction false} SumColumnsEmpty(p: Pattern, k: nat)
    requires |p| == 0
    ensures SumColumns(p, k) == 0
    decreases k
  {
    if k > 0 {
      SumColumnsEmpty(p, k - 1);
    }
  }

  /** Peeling the last row off every column. */
  lemma {:induction false} SumColumnsSplitLast(p: Pattern, k: nat)
    requires |p| > 0
    requires forall r :: 0 <= r < |p| ==> k <= |p[r]|
    ensures SumColumns(p, k) == SumColumns(p[..|p| - 1], k) + CountTrue(p[|p| - 1][..k])
    decreases k
  {
    var m := |p|;
    if k == 0 {
      assert p[m - 1][..0] == [];
    } else {
      SumColumnsSplitLast(p, k - 1);
      var c := Column(p, k - 1);
      assert c[..m - 1] == Column(p[..m - 1], k - 1);
      assert p[m - 1][..k][..k - 1] == p[m - 1][..k - 1];
    }
  }

  /** Summing per-row counts of a pattern whose rows match the columns of `p`. */
  lemma {:induction false} CountOfColumns(q: Pattern, p: Pattern, k: nat)
    requires k <= |q|
    requires forall r :: 0 <= r < |p| ==> k <= |p[r]|
    requires forall i :: 0 <= i < k ==> CountTrue(q[i]) == CountTrue(Column(p, i))
    ensures Count(q[..k]) == SumColumns(p, k)
    decreases k
  {
    if k > 0 {
      assert q[..k][..k - 1] == q[..k - 1];
      CountOfColumns(q, p, k - 1);
    }
  }

  /** A quarter turn keeps the number of filled cells. */
  lemma RotatePreservesCount(p: Pattern)
    requires Rectangular(p)
    ensures Count(Rotate(p)) == Count(p)
  {
    var q := Rotate(p);
    var n := |p[0]|;
    forall i | 0 <= i < n
      ensures CountTrue(q[i]) == CountTrue(Column(p, i))
    {
      assert q[i] == Reverse(Column(p, i));
      CountTrueReverse(Column(p, i));
    }
    CountOfColumns(q, p, n);
    assert q[..n] == q;
    SumColumnsByRows(p, n);
  }

  /** Every one of the seven patterns has exactly four squares. */
  lemma ShapeHasFourCells(k: Kind)
    ensures Count(Shape(k)) == 4
  {
    var p := Shape(k);
    if |p| == 1 {
      assert p[..0] == [];
      RowOfFour(p[0]);
    } else {
      assert p[..1][..0] == [];
      assert Count(p[..1]) == CountTrue(p[0]);
      RowOfTwoOrThree(p[0]);
      RowOfTwoOrThree(p[1]);
    }
  }

  /** Filled cells of a short row, unfolded one position at a time. */
  lemma RowOfTwoOrThree(s: seq<bool>)
    requires 2 <= |s| <= 3
    ensures |s| == 2 ==> CountTrue(s) == Bit(s[0]) + Bit(s[1])
    ensures |s| == 3 ==> CountTrue(s) == Bit(s[0]) + Bit(s[1]) + Bit(s[2])
  {
    var one := s[..1];
    assert one[..0] == [];
    assert CountTrue(one) == Bit(s[0]);
    var two := s[..2];
    assert two[..1] == one;
    assert CountTrue(two) == Bit(s[0]) + Bit(s[1]);
    if |s| == 2 {
      assert s == two;
    } else {
      assert s[..2] == two;
    }
  }

  lemma RowOfFour(s: seq<bool>)
    requires |s| == 4
    ensures CountTrue(s) == Bit(s[0]) + Bit(s[1]) + Bit(s[2]) + Bit(s[3])
  {
    RowOfTwoOrThree(s[..3]);
  }

  /** Two quarter turns: a half turn. */
  lemma RotateTwice(p: Pattern)
    requires Rectangular(p)
    ensures Rectangular(Rotate(Rotate(p)))
    ensures |Rotate(Rotate(p))| == |p| && |Rotate(Rotate(p))[0]| == |p[0]|
    ensures forall i, j :: 0 <= i < |p| && 0 <= j < |p[0]| ==>
              Rotate(Rotate(p))[i][j] == p[|p| - 1 - i][|p[0]| - 1 - j]
  {
  }

  /** Four quarter turns give back the original pattern. */
  lemma RotateFourTimes(p: Pattern)
    requires Rectangular(p)
    ensures Rotate(Rotate(Rotate(Rotate(p)))) == p
  {
    var h := Rotate(Rotate(p));
    RotateTwice(p);
    RotateTwice(h);
    var q := Rotate(Rotate(h));
    forall i | 0 <= i < |p|
      ensures q[i] == p[i]
    {
      assert |q[i]| == |p[i]|;
      forall j | 0 <= j < |p[i]|
        ensures q[i][j] == p[i][j]
      {
        assert q[i][j] == h[|p| - 1 - i][|p[0]| - 1 - j];
      }
    }
  }

  /** A quarter turn of any piece keeps its four squares. */
  lemma RotatedShapeHasFourCells(k: Kind)
    ensures Count(Rotate(Shape(k))) == 4
    ensures Count(Rotate(Rotate(Shape(k)))) == 4
    ensures Count(Rotate(Rotate(Rotate(Shape(k))))) == 4
  {
    ShapeHasFourCells(k);
    var p := Shape(k);
    RotatePreservesCount(p);
    RotatePreservesCount(Rotate(p));
    RotatePreservesCount(Rotate(Rotate(p)));
  }
}
